=== FILE: README.md ===
# Type helper: assignability, lowest base type and structural matching

This project models Umbraco's `TypeHelper`, the helper used by the plugin
manager and the extension-method finder to reason about types. The model
follows the behaviour that the assertions of
`src/Umbraco.Tests/Plugins/TypeHelperTests.cs` pin down. The implementation of
`TypeHelper` itself is not part of this model. The model has four operations
over a finite type graph:

- `IsTypeAssignableFrom(target, candidate)`: ordinary subtyping. The
  candidate is the target, or reaches it through its base-class chain or its
  transitively implemented interfaces. Generic arguments must match exactly.
- `IsAssignableFromGeneric(contract, candidate)`: assignability to an open
  generic shape. The candidate, its base chain or its interfaces must contain
  an instantiation of the contract's generic definition.
- `GetLowestBaseType(types)`: the input to which every other input is
  assignable, reported as an attempt that may fail.
- `MatchType(candidate, pattern, bindings, variance)`: structural matching of
  a candidate against a pattern that may contain free generic parameters. It
  records what each parameter was bound to.

Types are values of an inductive datatype (`Types.Type`). A type is either a
free parameter `Param(name)` or a named type. A named type carries its generic
arguments, an optional base type and its declared interfaces. A generic
definition such as `IEnumerable<>` is the definition applied to its own
parameters, which is how reflection reports it. Names carry reflection's arity
suffix, so the non-generic `IEnumerable` and "IEnumerable`1" are different
types. Type identity is value equality. One consequence: `Fixtures.ListDefinition`
(reflection's `typeof(List<>)`) and `Fixtures.TestMethod7Parameter` (the
parameter type `List<T>` of the generic method `TestMethod7<T>`) are the same
value here. Reflection reports them as two distinct `Type` objects, because
the method's `T` is a method-level parameter and not the class's own. No
assertion compares the two, so the model does not tell them apart.

Module layout:

- `types.dfy`: the datatype, openness (of a type, and of its whole
  ancestry), parameter names, the reference ancestor set and a height rank.
- `assignability.dfy`: `IsTypeAssignableFrom`, `IsAssignableFromGeneric`,
  their characterisations, and `FindInstance`, the first instantiation of a
  generic definition in a type's ancestry.
- `lowest_base.dfy`: `GetLowestBaseType` and how its result behaves when
  inputs are added.
- `matching.dfy`: `MatchType`, its search through the candidate's ancestry
  (`MatchOpen`), its reverse attempt (`MatchReverse`), the bindings they
  produce, and corollaries for patterns of one and two parameters.
- `matching_examples.dfy`: examples of `MatchType` beyond the fixture's
  assertions. They show where the reverse attempt stops and how it pairs
  arguments through an ancestor, an instantiation against its own
  definition, a later instantiation deciding the search, and a closed
  argument position.
- `fixtures.dfy`: the runtime, data-access and application types the tests
  use, plus the generic fixture hierarchy (`TypeHelperTests.cs:82-92`).
- `type_helper_tests.dfy`: every assertion of the test fixture as a concrete
  lemma, with the helper lemmas their proofs share.

Design decisions:

- `GetLowestBaseType` returns one of its inputs, never an ancestor that is not
  an input. The three command types share the ancestor `DbCommand`, yet the
  call at `TypeHelperTests.cs:104-107` fails. An intersection of ancestor sets
  would have returned `DbCommand`.
- The result does not depend on input order, because assignability is a
  partial order. `AssignableAntisymmetric` proves this with the height rank.
- `IsAssignableFromGeneric` is false for a non-generic contract and for a
  closed instantiation (lines 61, 64, 65). This holds even when the contract
  equals the candidate. A generic contract that still has a free parameter,
  such as the `Count` parameter type `IEnumerable<TSource>`, stands for its
  definition (lines 72-78).
- An open generic pattern is first sought in the candidate's own ancestry:
  the candidate itself, then its interfaces in order, then its base chain. The
  first instantiation of the pattern's definition whose arguments match
  decides. An earlier instantiation that failed on its arguments is passed
  over, and the bindings it wrote remain (`MatchingExamples.LaterInstanceDecides`).
  For a definition pattern the first instantiation with the right arity
  always matches, so there the first instantiation found decides.
- Arguments are matched position by position against a reference
  definition, `Matching.Fits`. A closed argument must be equal, a nested open
  argument must instantiate its own definition with fitting arguments, and a
  free parameter takes anything. Two occurrences of one parameter need not
  agree: both candidates are recorded under its name.
- When that search fails, `MatchType` makes one more attempt, which is called
  the reverse path below. It applies only at the top level, with variance on,
  and only to a generic candidate. It takes the first instantiation `a` of the
  candidate's definition in the pattern's own ancestry. It then pairs the
  candidate's arguments with `a`'s arguments, by position. For `IList<int>`
  against `List<T>`, `a` is `List<T>`'s interface `IList<T>`, so `T` is bound
  to `int`. The attempt fails unless `a` mentions exactly the pattern's free
  parameters, so that a success determines all of them.
- The reverse path exists only for the assertion at `TypeHelperTests.cs:168-171`.
  That assertion matches `IList<int>` against `t1`, and the comment at line 160
  says `t1` is `List<T>`. The ancestors of `IList<int>` do not include `List<>`,
  so the candidate-side search alone fails there.
- The reverse path accepts inputs that ordinary subtyping would reject. Any
  generic candidate whose definition is an ancestor of the pattern matches it.
  For example, `IEnumerable<int>` and `ICollection<int>` both match `List<T>`
  and bind `T` to `int`. A closed pattern is matched by assignability instead,
  so `IList<int>` does not match `List<int>`, although it matches `List<T>`.
  A non-generic candidate never takes the reverse path, so
  `DynamicPublishedContentList` does not match `List<T>`.
- `MatchType` matches nested generic arguments with variance off, that is, by
  equality. The three-argument calls in the tests are modelled with variance
  on.

## Model

| member | source | states |
|---|---|---|
| Types.ParamNames | src/Umbraco.Tests/Plugins/TypeHelperTests.cs:68-78 | a type has free parameter names exactly when it still contains an unbound generic parameter, as the `Count` parameter type `IEnumerable<TSource>` does |
| Types.Ancestors | src/Umbraco.Tests/Plugins/TypeHelperTests.cs:37-39 | the reference set of supertypes (the type itself, its base chain and its transitive interfaces) always contains the type itself |
| Assignability.AssignableIffAncestor | src/Umbraco.Tests/Plugins/TypeHelperTests.cs:37-42 | assignability holds exactly when the target is in the candidate's reference ancestor set, in both directions |
| Assignability.AssignableTransitive | src/Umbraco.Tests/Plugins/TypeHelperTests.cs:37-39 | assignability composes: `List<X>` reaches `IEnumerable<X>` through `IList<X>` and `ICollection<X>` |
| Assignability.AssignableRaisesHeight | src/Umbraco.Tests/Plugins/TypeHelperTests.cs:104-107 | a proper supertype sits strictly higher in the hierarchy than any type assignable to it |
| Assignability.AssignableAntisymmetric | src/Umbraco.Tests/Plugins/TypeHelperTests.cs:104-140 | two types assignable to each other are equal, so assignability is a partial order |
| Assignability.ClosedNotAssignableToOpen | src/Umbraco.Tests/Plugins/TypeHelperTests.cs:41-42 | a type that is closed throughout, with its base and every interface closed recursively, is never assignable to an open type, so `IEnumerable<IPublishedContent>` is not assignable to `IEnumerable<>` |
| Assignability.ReachesDefinitionIffAssignableInstance | src/Umbraco.Tests/Plugins/TypeHelperTests.cs:53-58 | the candidate's walk reaches a definition exactly when the candidate is assignable to some instantiation of it |
| Assignability.AssignableFromGenericIffInstance | src/Umbraco.Tests/Plugins/TypeHelperTests.cs:53-78 | generic assignability holds exactly when the contract is an open generic type and the candidate is assignable to some instantiation of the contract's definition; non-generic and closed contracts never match |
| Assignability.AssignableFromGenericInherited | src/Umbraco.Tests/Plugins/TypeHelperTests.cs:53-58 | a subtype of a type that is generic-assignable to a contract is generic-assignable to it too (`Derived2<int>` through `Derived<int>`) |
| LowestBase.GetLowestBaseType | src/Umbraco.Tests/Plugins/TypeHelperTests.cs:104-140 | on success the result is one of the inputs and every input is assignable to it; on failure no input is a base of all the inputs |
| LowestBase.LowestBaseIsBaseOfAll | src/Umbraco.Tests/Plugins/TypeHelperTests.cs:109-122 | whenever some input is a base of all the inputs, the search succeeds with exactly that input |
| LowestBase.BaseOfAllUnique | src/Umbraco.Tests/Plugins/TypeHelperTests.cs:109-122 | at most one input is a base of all the inputs |
| LowestBase.LowestBaseOrderIndependent | src/Umbraco.Tests/Plugins/TypeHelperTests.cs:104-140 | input lists containing the same types, in any order and with any repetition, have the same lowest base type |
| LowestBase.AddWiderInput | src/Umbraco.Tests/Plugins/TypeHelperTests.cs:116-122 | adding an input to which the current result is assignable moves the result up to that input |
| LowestBase.AddNarrowerInput | src/Umbraco.Tests/Plugins/TypeHelperTests.cs:109-122 | adding an input that is assignable to the current result keeps the result |
| LowestBase.AddUnrelatedInput | src/Umbraco.Tests/Plugins/TypeHelperTests.cs:124-130 | adding an input unrelated to the current result in both directions makes the search fail |
| LowestBase.AddInputAfterFailure | src/Umbraco.Tests/Plugins/TypeHelperTests.cs:104-114 | after a failure, adding an input succeeds with that input exactly when every earlier input is assignable to it, and fails otherwise |
| Assignability.FindInstance | src/Umbraco.Tests/Plugins/TypeHelperTests.cs:182-186 | a type's ancestry yields an instantiation of a definition exactly when the type reaches that definition, and what it yields is an instantiation the type is assignable to |
| Matching.MatchType | src/Umbraco.Tests/Plugins/TypeHelperTests.cs:147-157 | bindings are only ever extended, only with the pattern's own parameters; a success binds every parameter of the pattern; a pattern without free parameters leaves the bindings unchanged and matches exactly by assignability; with variance off, as for nested arguments, an open generic pattern matches only an instantiation of its own definition |
| Matching.MatchIffFits | src/Umbraco.Tests/Plugins/TypeHelperTests.cs:147-180 | with variance off, as for every generic argument, a match succeeds exactly when the candidate fits the pattern: closed patterns by equality, free parameters always, open generic patterns by same definition, same arity and fitting arguments position by position; the bindings so far never decide success |
| Matching.MatchInstanceIffFits | src/Umbraco.Tests/Plugins/TypeHelperTests.cs:177-180 | at the top level, an instantiation of an open pattern's own definition matches it exactly when the arities agree and every argument fits the pattern's argument in the same position, so a closed position must be equal |
| Matching.MatchReverse | src/Umbraco.Tests/Plugins/TypeHelperTests.cs:158-171 | the reverse attempt only ever succeeds when the pattern's ancestry reaches the candidate's definition, and only binds the pattern's own parameters |
| Matching.MatchFreeParameterBinds | src/Umbraco.Tests/Plugins/TypeHelperTests.cs:163-166 | a free parameter matches any candidate and appends it to that parameter's bindings, leaving every other binding untouched |
| Matching.MatchInstanceOfDefinition | src/Umbraco.Tests/Plugins/TypeHelperTests.cs:177-180 | an instantiation matched against its own generic definition succeeds, with variance on or off, binds exactly the definition's parameters, each to the argument in its position, and leaves other bindings untouched |
| Matching.NoInstanceNoMatch | src/Umbraco.Tests/Plugins/TypeHelperTests.cs:151-153 | a candidate whose ancestry holds no instantiation of the pattern's definition fails the search and binds nothing |
| Matching.MatchOpenAtInstance | src/Umbraco.Tests/Plugins/TypeHelperTests.cs:182-186 | the search stops at the first instantiation of the pattern's definition in the candidate's ancestry: when its arguments match, the search's result is exactly their match |
| Matching.MatchThroughAncestry | src/Umbraco.Tests/Plugins/TypeHelperTests.cs:182-186 | a candidate that is generic-assignable to a definition pattern matches it, provided the first instantiation found has the pattern's arity; each parameter is bound to that instantiation's argument in its position, and other bindings are untouched |
| Matching.MatchReverseBinds | src/Umbraco.Tests/Plugins/TypeHelperTests.cs:158-171 | when the candidate-side search finds nothing, a generic candidate matches through the first instantiation of its definition above the pattern; each parameter of that instantiation is bound to the candidate's argument in the same position |
| Matching.MatchNeedsSharedDefinition | src/Umbraco.Tests/Plugins/TypeHelperTests.cs:168-186 | an open generic pattern only matches through a generic definition shared by the candidate's ancestry and the pattern's ancestry |
| TypeHelperTests.IsGenericAssignable | src/Umbraco.Tests/Plugins/TypeHelperTests.cs:37-44 | the assignability assertions on `DynamicPublishedContentList`, `IQueryable<>`, `List<>` and the `IEnumerable<>` definition |
| TypeHelperTests.IsAssignableToGenericType | src/Umbraco.Tests/Plugins/TypeHelperTests.cs:53-78 | the successful generic-assignability assertions, including the `Count` parameter type |
| TypeHelperTests.IsNotAssignableToGenericType | src/Umbraco.Tests/Plugins/TypeHelperTests.cs:61-66 | the failing generic-assignability assertions |
| TypeHelperTests.FindCommonBaseClassOfCommands | src/Umbraco.Tests/Plugins/TypeHelperTests.cs:104-107 | three sibling commands have no lowest base type |
| TypeHelperTests.FindCommonBaseClassWithComponent | src/Umbraco.Tests/Plugins/TypeHelperTests.cs:109-114 | adding `Component` gives `Component` |
| TypeHelperTests.FindCommonBaseClassWithComponentBase | src/Umbraco.Tests/Plugins/TypeHelperTests.cs:116-122 | adding `Component`'s base gives `MarshalByRefObject` |
| TypeHelperTests.FindCommonBaseClassWithInt | src/Umbraco.Tests/Plugins/TypeHelperTests.cs:124-130 | adding `int` makes the search fail |
| TypeHelperTests.FindCommonBaseClassOfOne | src/Umbraco.Tests/Plugins/TypeHelperTests.cs:132-134 | a single input is its own lowest base type |
| TypeHelperTests.FindCommonBaseInterface | src/Umbraco.Tests/Plugins/TypeHelperTests.cs:136-140 | an interface input can be the result |
| TypeHelperTests.MatchSameType | src/Umbraco.Tests/Plugins/TypeHelperTests.cs:147-149 | `int` matches `int` and binds nothing |
| TypeHelperTests.MatchUnrelatedType | src/Umbraco.Tests/Plugins/TypeHelperTests.cs:151-153 | `int` does not match `string` and binds nothing |
| TypeHelperTests.MatchNonGenericInterface | src/Umbraco.Tests/Plugins/TypeHelperTests.cs:155-157 | `List<int>` matches the non-generic `IEnumerable` and binds nothing |
| TypeHelperTests.MatchFreeParameter | src/Umbraco.Tests/Plugins/TypeHelperTests.cs:163-166 | `int` against the parameter `T` binds `T` to `[int]` |
| TypeHelperTests.MatchInterfaceAgainstClassPattern | src/Umbraco.Tests/Plugins/TypeHelperTests.cs:168-171 | `IList<int>` against `List<T>` binds `T` to `[int]`, through the reverse path |
| MatchingExamples.ContentListNotAList | src/Umbraco.Tests/Plugins/TypeHelperTests.cs:158-171 | the non-generic `DynamicPublishedContentList` does not match `List<T>` and binds nothing, although it implements `IEnumerable<IPublishedContent>` |
| MatchingExamples.MatchReversePairsThroughAncestor | src/Umbraco.Tests/Plugins/TypeHelperTests.cs:158-171 | the reverse path pairs arguments through the pattern's ancestor: `IDictionary<int, string>` against `Swap<A, B> : IDictionary<B, A>` binds `B` to `[int]` and `A` to `[string]` |
| MatchingExamples.MatchDictionaryInterface | src/Umbraco.Tests/Plugins/TypeHelperTests.cs:177-180 | `IDictionary<int, string>` against its own definition `IDictionary<,>` binds exactly `TKey` to `[int]` and `TValue` to `[string]` |
| MatchingExamples.LaterInstanceDecides | src/Umbraco.Tests/Plugins/TypeHelperTests.cs:182-186 | against `IEnumerable<List<T>>`, a type implementing `IEnumerable<int>` and then `IEnumerable<List<string>>` matches through the later one and binds `T` to `[string]`, although the first instantiation found is `IEnumerable<int>` |
| MatchingExamples.ClosedArgumentMustAgree | src/Umbraco.Tests/Plugins/TypeHelperTests.cs:177-180 | against `IDictionary<TKey, string>`, `IDictionary<int, string>` matches and `IDictionary<int, int>` does not |
| TypeHelperTests.MatchClosedInterface | src/Umbraco.Tests/Plugins/TypeHelperTests.cs:173-175 | `List<int>` matches `IList<int>` and binds nothing |
| TypeHelperTests.MatchSameDefinition | src/Umbraco.Tests/Plugins/TypeHelperTests.cs:177-180 | `List<int>` against `List<T>` binds `T` to `[int]` |
| TypeHelperTests.MatchThroughInterface | src/Umbraco.Tests/Plugins/TypeHelperTests.cs:182-186 | `Dictionary<int, string>` against `IDictionary<,>` binds exactly `TKey` to `[int]` and `TValue` to `[string]` |

## Left out

- `IsStaticClass` (`TypeHelperTests.cs:95-99`): it reads runtime metadata flags and has no algorithm to model.
- Reflection (`typeof`, `GetMethods`, `GetParameters`, `BaseType`): the types it would produce are hand-built values in `fixtures.dfy`.
- Library and application types: only the ancestry edges the assertions depend on are encoded, not their full interface sets.
- Generic variance (co- and contravariance): arguments are compared exactly.
- Nullable shapes: `int?` is `Nullable<int>`, an ordinary generic value type. No special case for nullable wrappers is modelled.
- Matching.MatchType: makes no promise about the bindings left behind by a failed match, since no assertion pins that down. Failed attempts are not rolled back in the model.
- Matching.MatchType: the exact bindings of a success are stated only for definition patterns, whose arguments are distinct bare parameters (`MatchInstanceOfDefinition`, `MatchThroughAncestry`, `MatchReverseBinds`). For a pattern with a closed or nested argument position, or a repeated parameter, only the general facts about bindings hold: they are extended, only with the pattern's parameters, and all of them are bound. Success is characterised for every pattern with variance off (`MatchIffFits`) and for an instantiation of the pattern's own definition at the top level (`MatchInstanceIffFits`). It is not characterised for a top-level candidate that reaches the pattern's definition only through its ancestors, unless the pattern is a definition pattern. No assertion uses such a pattern.
- Assignability.IsTypeAssignableFrom: a free parameter is identified by its name alone, so every declaration's `T` is the same type. As a consequence `IEnumerable<>` is assignable from `List<>` here, because `List<T>` implements `IEnumerable<T>` over the same `T`. In reflection `List<>` implements `IEnumerable<T>` over its own `T`, which is not the definition `IEnumerable<>` (the comment at `TypeHelperTests.cs:68-70` makes this point), so .NET rejects the assignment. No assertion compares two open types this way.
- Assignability.IsTypeAssignableFrom: the datatype admits a closed type with an open ancestor, such as a non-generic class declaring the interface `IEnumerable<T>`. .NET cannot declare such a type. Such a type is assignable to the open `IEnumerable<T>`, so "a closed type is never assignable to an open one" holds only for types that are closed throughout (`ClosedNotAssignableToOpen`). The type compared at `TypeHelperTests.cs:41-42`, `IEnumerable<IPublishedContent>`, is closed throughout.
- LowestBase.GetLowestBaseType: for the same reason, `[List<>, IEnumerable<>]` gives `IEnumerable<>` here, where .NET would fail. No assertion passes open types to it.
- Matching.MatchType: an interface or a free parameter has no base type in the model, so a closed pattern `Object` is not matched by an interface such as `IEnumerable`. In .NET every interface and unconstrained parameter converts to `Object`. No assertion depends on it.
- Assignability.IsTypeAssignableFrom: interfaces and free parameters have no implicit `Object` supertype, so `IEnumerable` is not assignable to `Object` here, although it is in .NET. The implicit conversion from `int` to `int?` is not modelled either. No assertion depends on either.
- LowestBase.GetLowestBaseType: because interfaces do not reach `Object` in the model, `[IEnumerable, Object]` fails here, where .NET assignability would give `Object`. No assertion uses such a list.
- LowestBase.GetLowestBaseType: an empty input list is reported as a failure. The implementation is not part of this model, and a caller error for an empty list is not modelled.
- Idempotence of repeated calls: not stated as a lemma, because every operation is a pure function of its arguments.
- The NUnit fixture attributes and runner: only the assertions are modelled.

=== FILE: assignability.dfy ===
/** Assignability between type descriptors: ordinary subtyping with exact
    generic arguments, and assignability to an open generic definition. */
module Assignability {
  import opened Types

  /** `candidate` is assignable to `target`: it is `target`, or reaches it
      through its base-class chain or its (transitively) implemented
      interfaces. Generic arguments are compared exactly (no variance). */
  predicate IsTypeAssignableFrom(target: Type, candidate: Type)
    decreases candidate, 1
  {
    || candidate == target
    || (candidate.Named? && candidate.base.Some? && IsTypeAssignableFrom(target, candidate.base.value))
    || (candidate.Named? && AssignableThroughInterface(target, candidate, 0))
  }

  /** One of `candidate.interfaces[i..]` is assignable to `target`. */
  predicate AssignableThroughInterface(target: Type, candidate: Type, i: nat)
    requires candidate.Named?
    decreases candidate, 0, |candidate.interfaces| - i
  {
    && i < |candidate.interfaces|
    && (IsTypeAssignableFrom(target, candidate.interfaces[i]) || AssignableThroughInterface(target, candidate, i + 1))
  }

  lemma {:induction false} AssignableThroughInterfaceIff(target: Type, candidate: Type, i: nat)
    requires candidate.Named?
    ensures AssignableThroughInterface(target, candidate, i) <==>
            exists j :: i <= j < |candidate.interfaces| && IsTypeAssignableFrom(target, candidate.interfaces[j])
    decreases |candidate.interfaces| - i
  {
    if i < |candidate.interfaces| {
      AssignableThroughInterfaceIff(target, candidate, i + 1);
    }
  }

  /** One step of the walk: the candidate itself, its base type, or one of
      its declared interfaces. */
  lemma AssignableStep(target: Type, candidate: Type)
    ensures IsTypeAssignableFrom(target, candidate) <==>
            || candidate == target
            || (candidate.Named? && candidate.base.Some? && IsTypeAssignableFrom(target, candidate.base.value))
            || (candidate.Named? && exists j :: 0 <= j < |candidate.interfaces| &&
                                               IsTypeAssignableFrom(target, candidate.interfaces[j]))
  {
    if candidate.Named? {
      AssignableThroughInterfaceIff(target, candidate, 0);
    }
  }

  /** The walk of `IsTypeAssignableFrom` visits exactly the reference
      ancestor set: both directions. */
  lemma {:induction false} AssignableIffAncestor(target: Type, candidate: Type)
    ensures IsTypeAssignableFrom(target, candidate) <==> target in Ancestors(candidate)
    decreases candidate
  {
    AssignableStep(target, candidate);
    match candidate
    case Param(_) =>
    case Named(_, _, base, interfaces) =>
      if base.Some? {
        AssignableIffAncestor(target, base.value);
      }
      forall i | 0 <= i < |interfaces|
        ensures IsTypeAssignableFrom(target, interfaces[i]) <==> target in Ancestors(interfaces[i])
      {
        AssignableIffAncestor(target, interfaces[i]);
      }
      if target in Ancestors(candidate) && target != candidate
         && !(base.Some? && target in Ancestors(base.value)) {
        var i, a :| 0 <= i < |interfaces| && a in Ancestors(interfaces[i]) && a == target;
        assert IsTypeAssignableFrom(target, interfaces[i]);
      }
  }

  /** Assignability is transitive. */
  lemma {:induction false} AssignableTransitive(a: Type, b: Type, c: Type)
    requires IsTypeAssignableFrom(a, b) && IsTypeAssignableFrom(b, c)
    ensures IsTypeAssignableFrom(a, c)
    decreases c
  {
    AssignableStep(b, c);
    AssignableStep(a, c);
    if c == b {
    } else if c.Named? && c.base.Some? && IsTypeAssignableFrom(b, c.base.value) {
      AssignableTransitive(a, b, c.base.value);
    } else {
      var i :| 0 <= i < |c.interfaces| && IsTypeAssignableFrom(b, c.interfaces[i]);
      AssignableTransitive(a, b, c.interfaces[i]);
    }
  }

  /** A proper supertype sits strictly higher in the hierarchy. */
  lemma {:induction false} AssignableRaisesHeight(target: Type, candidate: Type)
    requires IsTypeAssignableFrom(target, candidate)
    ensures Height(target) <= Height(candidate)
    ensures target != candidate ==> Height(target) < Height(candidate)
    decreases candidate
  {
    AssignableStep(target, candidate);
    if candidate == target {
    } else if candidate.Named? && candidate.base.Some? && IsTypeAssignableFrom(target, candidate.base.value) {
      AssignableRaisesHeight(target, candidate.base.value);
    } else {
      var i :| 0 <= i < |candidate.interfaces| && IsTypeAssignableFrom(target, candidate.interfaces[i]);
      AssignableRaisesHeight(target, candidate.interfaces[i]);
    }
  }

  /** A type is never assignable to a different type at its own height or
      above. */
  lemma NotAssignableUpward(target: Type, candidate: Type)
    requires target != candidate && Height(candidate) <= Height(target)
    ensures !IsTypeAssignableFrom(target, candidate)
  {
    if IsTypeAssignableFrom(target, candidate) {
      AssignableRaisesHeight(target, candidate);
    }
  }

  /** Two types assignable to each other are the same type: with
      reflexivity and transitivity, assignability is a partial order. */
  lemma AssignableAntisymmetric(a: Type, b: Type)
    requires IsTypeAssignableFrom(a, b) && IsTypeAssignableFrom(b, a)
    ensures a == b
  {
    AssignableRaisesHeight(a, b);
    AssignableRaisesHeight(b, a);
  }

  /** A type that is closed throughout is never assignable to an open
      type: `IEnumerable<IPublishedContent>` cannot be assigned to the
      definition `IEnumerable<>`. */
  lemma {:induction false} ClosedNotAssignableToOpen(target: Type, candidate: Type)
    requires IsOpen(target) && ClosedThroughout(candidate)
    ensures !IsTypeAssignableFrom(target, candidate)
    decreases candidate, 1
  {
    if candidate.Named? {
      if candidate.base.Some? {
        ClosedNotAssignableToOpen(target, candidate.base.value);
      }
      ClosedInterfacesNotAssignable(target, candidate, 0);
    }
  }

  lemma {:induction false} ClosedInterfacesNotAssignable(target: Type, candidate: Type, i: nat)
    requires IsOpen(target) && candidate.Named? && InterfacesClosed(candidate, i)
    ensures !AssignableThroughInterface(target, candidate, i)
    decreases candidate, 0, |candidate.interfaces| - i
  {
    if i < |candidate.interfaces| {
      ClosedNotAssignableToOpen(target, candidate.interfaces[i]);
      ClosedInterfacesNotAssignable(target, candidate, i + 1);
    }
  }

  /** `candidate`, its base chain or its transitive interfaces include an
      instantiation of the generic definition called `definition`. */
  predicate ReachesDefinition(candidate: Type, definition: string)
    decreases candidate, 1
  {
    && candidate.Named?
    && (|| (candidate.IsGeneric() && candidate.name == definition)
        || (candidate.base.Some? && ReachesDefinition(candidate.base.value, definition))
        || InterfaceReachesDefinition(candidate, definition, 0))
  }

  /** One of `candidate.interfaces[i..]` reaches the definition. */
  predicate InterfaceReachesDefinition(candidate: Type, definition: string, i: nat)
    requires candidate.Named?
    decreases candidate, 0, |candidate.interfaces| - i
  {
    && i < |candidate.interfaces|
    && (ReachesDefinition(candidate.interfaces[i], definition) || InterfaceReachesDefinition(candidate, definition, i + 1))
  }

  lemma {:induction false} InterfaceReachesDefinitionIff(candidate: Type, definition: string, i: nat)
    requires candidate.Named?
    ensures InterfaceReachesDefinition(candidate, definition, i) <==>
            exists j :: i <= j < |candidate.interfaces| && ReachesDefinition(candidate.interfaces[j], definition)
    decreases |candidate.interfaces| - i
  {
    if i < |candidate.interfaces| {
      InterfaceReachesDefinitionIff(candidate, definition, i + 1);
    }
  }

  lemma ReachesDefinitionStep(candidate: Type, definition: string)
    ensures ReachesDefinition(candidate, definition) <==>
            && candidate.Named?
            && (|| (candidate.IsGeneric() && candidate.name == definition)
                || (candidate.base.Some? && ReachesDefinition(candidate.base.value, definition))
                || exists j :: 0 <= j < |candidate.interfaces| && ReachesDefinition(candidate.interfaces[j], definition))
  {
    if candidate.Named? {
      InterfaceReachesDefinitionIff(candidate, definition, 0);
    }
  }

  /** `candidate` is assignable to some instantiation of the open generic
      shape `contract`. The contract must be a generic type that still has a
      free parameter: a generic definition such as `Base<>`, or an open
      instantiation such as `IEnumerable<TSource>`, which then stands for its
      definition. A non-generic or closed contract is never matched. */
  predicate IsAssignableFromGeneric(contract: Type, candidate: Type)
  {
    contract.IsGeneric() && IsOpen(contract) && ReachesDefinition(candidate, contract.name)
  }

  /** An instantiation of the definition `n` to which `g` belongs. */
  predicate InstanceOf(g: Type, n: string) {
    g.IsGeneric() && g.name == n
  }

  lemma {:induction false} ReachesDefinitionIffAssignableInstance(candidate: Type, n: string)
    ensures ReachesDefinition(candidate, n) <==>
            exists g :: IsTypeAssignableFrom(g, candidate) && InstanceOf(g, n)
    decreases candidate
  {
    ReachesDefinitionStep(candidate, n);
    forall g ensures IsTypeAssignableFrom(g, candidate) <==>
            || candidate == g
            || (candidate.Named? && candidate.base.Some? && IsTypeAssignableFrom(g, candidate.base.value))
            || (candidate.Named? && exists j :: 0 <= j < |candidate.interfaces| &&
                                               IsTypeAssignableFrom(g, candidate.interfaces[j]))
    {
      AssignableStep(g, candidate);
    }
    if ReachesDefinition(candidate, n) {
      if InstanceOf(candidate, n) {
        assert IsTypeAssignableFrom(candidate, candidate);
      } else if candidate.base.Some? && ReachesDefinition(candidate.base.value, n) {
        ReachesDefinitionIffAssignableInstance(candidate.base.value, n);
        var g :| IsTypeAssignableFrom(g, candidate.base.value) && InstanceOf(g, n);
        assert IsTypeAssignableFrom(g, candidate);
      } else {
        var i :| 0 <= i < |candidate.interfaces| && ReachesDefinition(candidate.interfaces[i], n);
        ReachesDefinitionIffAssignableInstance(candidate.interfaces[i], n);
        var g :| IsTypeAssignableFrom(g, candidate.interfaces[i]) && InstanceOf(g, n);
        assert IsTypeAssignableFrom(g, candidate);
      }
    }
    if exists g :: IsTypeAssignableFrom(g, candidate) && InstanceOf(g, n) {
      var g :| IsTypeAssignableFrom(g, candidate) && InstanceOf(g, n);
      if g == candidate {
      } else if candidate.Named? && candidate.base.Some? && IsTypeAssignableFrom(g, candidate.base.value) {
        ReachesDefinitionIffAssignableInstance(candidate.base.value, n);
      } else {
        var i :| 0 <= i < |candidate.interfaces| && IsTypeAssignableFrom(g, candidate.interfaces[i]);
        ReachesDefinitionIffAssignableInstance(candidate.interfaces[i], n);
      }
    }
  }

  /** Generic assignability, characterised by ordinary assignability: the
      contract is an open generic type and the candidate is assignable to
      some instantiation of the contract's definition. */
  lemma AssignableFromGenericIffInstance(contract: Type, candidate: Type)
    ensures IsAssignableFromGeneric(contract, candidate) <==>
            && contract.IsGeneric() && IsOpen(contract)
            && exists g :: IsTypeAssignableFrom(g, candidate) && InstanceOf(g, contract.name)
  {
    if contract.Named? {
      ReachesDefinitionIffAssignableInstance(candidate, contract.name);
    }
  }

  /** Generic assignability is inherited by subtypes. */
  lemma AssignableFromGenericInherited(contract: Type, b: Type, c: Type)
    requires IsAssignableFromGeneric(contract, b) && IsTypeAssignableFrom(b, c)
    ensures IsAssignableFromGeneric(contract, c)
  {
    AssignableFromGenericIffInstance(contract, b);
    var g :| IsTypeAssignableFrom(g, b) && InstanceOf(g, contract.name);
    AssignableTransitive(g, b, c);
    AssignableFromGenericIffInstance(contract, c);
  }

  /** The first instantiation of the definition `n` met in the ancestry of
      `t`, searched in the order the matcher walks it: `t` itself, then its
      declared interfaces in order, each searched in full, then its base
      type. It exists exactly when `t` reaches the definition. */
  function FindInstance(t: Type, n: string): (r: Option<Type>)
    ensures r.Some? <==> ReachesDefinition(t, n)
    ensures r.Some? ==> InstanceOf(r.value, n) && IsTypeAssignableFrom(r.value, t)
    ensures r.Some? ==> Size(r.value) <= Size(t)
    decreases t, 1
  {
    if t.Param? then None
    else if InstanceOf(t, n) then Some(t)
    else FindInstanceAbove(t, n, 0)
  }

  /** The first instantiation of `n` in the ancestry of `t.interfaces[i..]`,
      and failing that in the ancestry of `t`'s base type. */
  function FindInstanceAbove(t: Type, n: string, i: nat): (r: Option<Type>)
    requires t.Named? && i <= |t.interfaces|
    ensures r.Some? <==> InterfaceReachesDefinition(t, n, i) || (t.base.Some? && ReachesDefinition(t.base.value, n))
    ensures r.Some? ==> InstanceOf(r.value, n)
    ensures r.Some? ==> AssignableThroughInterface(r.value, t, i) || (t.base.Some? && IsTypeAssignableFrom(r.value, t.base.value))
    ensures r.Some? ==> Size(r.value) < Size(t)
    decreases t, 0, |t.interfaces| - i
  {
    if i < |t.interfaces| then
      var first := FindInstance(t.interfaces[i], n);
      if first.Some? then first else FindInstanceAbove(t, n, i + 1)
    else if t.base.Some? then FindInstance(t.base.value, n)
    else None
  }
}

=== FILE: fixtures.dfy ===
/** The types the type-helper tests use, as descriptors. Library and
    application types carry only the ancestry edges the tests depend on;
    the small generic hierarchy (`Base<T>`, `IBase<T>`, `IDerived<T>`,
    `Derived<T>`, `Derived2<T>`, `DerivedI<T>`) is declared exactly as in the
    test fixture. */
module Fixtures {
  import opened Types

  // Runtime library types.

  const Object: Type := Named("Object", [], None, [])
  const ValueType: Type := Named("ValueType", [], Some(Object), [])
  const MarshalByRefObject: Type := Named("MarshalByRefObject", [], Some(Object), [])
  const IComparable: Type := Named("IComparable", [], None, [])
  const IDisposable: Type := Named("IDisposable", [], None, [])
  const ICloneable: Type := Named("ICloneable", [], None, [])
  const Int32: Type := Named("Int32", [], Some(ValueType), [IComparable])
  const String: Type := Named("String", [], Some(Object), [IComparable])

  function Nullable(t: Type): (r: Type) {
    Named("Nullable`1", [t], Some(ValueType), [])
  }

  const IEnumerable: Type := Named("IEnumerable", [], None, [])

  function IEnumerableOf(t: Type): (r: Type) {
    Named("IEnumerable`1", [t], None, [IEnumerable])
  }

  function ICollectionOf(t: Type): (r: Type) {
    Named("ICollection`1", [t], None, [IEnumerableOf(t)])
  }

  function IListOf(t: Type): (r: Type) {
    Named("IList`1", [t], None, [ICollectionOf(t)])
  }

  function ListOf(t: Type): (r: Type) {
    Named("List`1", [t], Some(Object), [IListOf(t)])
  }

  function IQueryableOf(t: Type): (r: Type) {
    Named("IQueryable`1", [t], None, [IEnumerableOf(t)])
  }

  function KeyValuePairOf(k: Type, v: Type): (r: Type) {
    Named("KeyValuePair`2", [k, v], Some(ValueType), [])
  }

  function IDictionaryOf(k: Type, v: Type): (r: Type) {
    Named("IDictionary`2", [k, v], None, [ICollectionOf(KeyValuePairOf(k, v))])
  }

  function DictionaryOf(k: Type, v: Type): (r: Type) {
    Named("Dictionary`2", [k, v], Some(Object), [IDictionaryOf(k, v)])
  }

  /** Generic definitions: each definition applied to its own parameters. */
  const T: Type := Param("T")
  const IEnumerableDefinition: Type := IEnumerableOf(T)
  const ListDefinition: Type := ListOf(T)
  const NullableDefinition: Type := Nullable(T)
  const IDictionaryDefinition: Type := IDictionaryOf(Param("TKey"), Param("TValue"))

  /** The parameter type of the one-argument `Enumerable.Count`:
      `IEnumerable<TSource>`, open in the method's own parameter. */
  const CountParameter: Type := IEnumerableOf(Param("TSource"))

  /** The parameter type `List<T>` of a generic method `TestMethod7<T>`, and
      its generic argument `T`. */
  const TestMethod7Parameter: Type := ListOf(T)
  const TestMethod7Argument: Type := T

  // Data-access and component types.

  const IComponent: Type := Named("IComponent", [], None, [IDisposable])
  const Component: Type := Named("Component", [], Some(MarshalByRefObject), [IComponent])
  const IDbCommand: Type := Named("IDbCommand", [], None, [IDisposable])
  const DbCommand: Type := Named("DbCommand", [], Some(Component), [IDbCommand])
  const OleDbCommand: Type := Named("OleDbCommand", [], Some(DbCommand), [ICloneable])
  const OdbcCommand: Type := Named("OdbcCommand", [], Some(DbCommand), [ICloneable])
  const SqlCommand: Type := Named("SqlCommand", [], Some(DbCommand), [ICloneable])

  // Application types.

  const IPublishedContent: Type := Named("IPublishedContent", [], None, [])
  const DynamicObject: Type := Named("DynamicObject", [], Some(Object), [])
  const DynamicPublishedContentList: Type :=
    Named("DynamicPublishedContentList", [], Some(DynamicObject), [IEnumerableOf(IPublishedContent)])
  const PropertyAliasDto: Type := Named("PropertyAliasDto", [], Some(Object), [])
  const IApplicationEventHandler: Type := Named("IApplicationEventHandler", [], None, [])
  const ApplicationEventHandler: Type :=
    Named("ApplicationEventHandler", [], Some(Object), [IApplicationEventHandler])
  const Scheduler: Type := Named("Scheduler", [], Some(ApplicationEventHandler), [])
  const CacheRefresherEventHandler: Type :=
    Named("CacheRefresherEventHandler", [], Some(ApplicationEventHandler), [])

  // The generic hierarchy declared by the tests.

  function Base(t: Type): (r: Type) {
    Named("Base`1", [t], Some(Object), [])
  }

  function IBase(t: Type): (r: Type) {
    Named("IBase`1", [t], None, [])
  }

  function IDerived(t: Type): (r: Type) {
    Named("IDerived`1", [t], None, [IBase(t)])
  }

  function Derived(t: Type): (r: Type) {
    Named("Derived`1", [t], Some(Base(t)), [IBase(t)])
  }

  function Derived2(t: Type): (r: Type) {
    Named("Derived2`1", [t], Some(Derived(t)), [])
  }

  function DerivedI(t: Type): (r: Type) {
    Named("DerivedI`1", [t], Some(Object), [IDerived(t)])
  }
}

=== FILE: lowest_base.dfy ===
/** The lowest base type of a list of types: the input to which every other
    input is assignable. The result is always one of the inputs; common
    ancestors that are not themselves inputs are never invented. */
module LowestBase {
  import opened Types
  import opened Assignability

  /** The outcome of an operation that may not produce a value: a success
      flag together with the result when there is one. */
  datatype Attempt<+T> = Succeed(result: T) | Fail

  /** Every input from the `j`-th on, other than `curr`, is assignable to
      `curr`. */
  predicate IsBaseOfOthers(curr: Type, types: seq<Type>, j: nat)
    requires j <= |types|
    decreases |types| - j
  {
    || j == |types|
    || ((types[j] == curr || IsTypeAssignableFrom(curr, types[j])) && IsBaseOfOthers(curr, types, j + 1))
  }

  /** Since a type is assignable to itself, being a base of all the other
      inputs is being a base of all the inputs. */
  lemma {:induction false} BaseOfOthersIsBaseOfAll(curr: Type, types: seq<Type>, j: nat)
    requires j <= |types|
    ensures IsBaseOfOthers(curr, types, j) <==>
            forall k :: j <= k < |types| ==> IsTypeAssignableFrom(curr, types[k])
    decreases |types| - j
  {
    if j < |types| {
      BaseOfOthersIsBaseOfAll(curr, types, j + 1);
    }
  }

  /** Every input is assignable to `b`. */
  predicate IsBaseOfAll(b: Type, types: seq<Type>) {
    forall i :: 0 <= i < |types| ==> IsTypeAssignableFrom(b, types[i])
  }

  /** The lowest base type among `types`: no input gives failure, a single
      input is its own result, otherwise the first input to which all the
      others are assignable. */
  function GetLowestBaseType(types: seq<Type>): (r: Attempt<Type>)
    ensures r.Succeed? ==> r.result in types && IsBaseOfAll(r.result, types)
    ensures r.Fail? ==> forall i :: 0 <= i < |types| ==> !IsBaseOfAll(types[i], types)
  {
    if |types| == 0 then Fail
    else if |types| == 1 then Succeed(types[0])
    else FirstBase(types, 0)
  }

  /** Scan `types[i..]` for the first input that is a base of all the others. */
  function FirstBase(types: seq<Type>, i: nat): (r: Attempt<Type>)
    requires i <= |types|
    ensures r.Succeed? ==> exists j :: i <= j < |types| && types[j] == r.result && IsBaseOfAll(r.result, types)
    ensures r.Fail? ==> forall j :: i <= j < |types| ==> !IsBaseOfAll(types[j], types)
    decreases |types| - i
  {
    if i == |types| then Fail
    else
      BaseOfOthersIsBaseOfAll(types[i], types, 0);
      if IsBaseOfOthers(types[i], types, 0) then Succeed(types[i])
      else FirstBase(types, i + 1)
  }

  /** The lowest base type is found exactly when some input is a base of
      all the inputs, and then it is that input. */
  lemma LowestBaseIsBaseOfAll(types: seq<Type>, b: Type)
    requires b in types && IsBaseOfAll(b, types)
    ensures GetLowestBaseType(types) == Succeed(b)
  {
    var r := GetLowestBaseType(types);
    BaseOfAllUnique(b, r.result, types);
  }

  /** When no input is a base of all the inputs, the search fails. */
  lemma NoBaseOfAllFails(types: seq<Type>)
    requires forall i :: 0 <= i < |types| ==> !IsBaseOfAll(types[i], types)
    ensures GetLowestBaseType(types) == Fail
  {
  }

  /** Among the inputs there is at most one base of all the inputs, so the
      result does not depend on the order in which the inputs are scanned. */
  lemma BaseOfAllUnique(a: Type, b: Type, types: seq<Type>)
    requires a in types && b in types
    requires IsBaseOfAll(a, types) && IsBaseOfAll(b, types)
    ensures a == b
  {
    var i :| 0 <= i < |types| && types[i] == a;
    var j :| 0 <= j < |types| && types[j] == b;
    AssignableAntisymmetric(a, b);
  }

  /** Inputs that contain the same types, in any order and with any
      repetition, have the same lowest base type. */
  lemma LowestBaseOrderIndependent(ts: seq<Type>, us: seq<Type>)
    requires forall t :: t in ts <==> t in us
    ensures GetLowestBaseType(ts) == GetLowestBaseType(us)
  {
    var rt, ru := GetLowestBaseType(ts), GetLowestBaseType(us);
    assert forall b :: IsBaseOfAll(b, ts) <==> IsBaseOfAll(b, us) by {
      forall b ensures IsBaseOfAll(b, ts) <==> IsBaseOfAll(b, us) {
        if IsBaseOfAll(b, ts) {
          forall j | 0 <= j < |us| ensures IsTypeAssignableFrom(b, us[j]) {
            assert us[j] in ts;
          }
        }
        if IsBaseOfAll(b, us) {
          forall j | 0 <= j < |ts| ensures IsTypeAssignableFrom(b, ts[j]) {
            assert ts[j] in us;
          }
        }
      }
    }
    if rt.Succeed? {
      var k :| 0 <= k < |us| && us[k] == rt.result;
      assert ru.Succeed?;
      BaseOfAllUnique(rt.result, ru.result, ts);
    } else if ru.Succeed? {
      assert false;
    }
  }

  /** A base of all of `ts + [u]` is a base of all of `ts` that `u` is
      assignable to. */
  lemma BaseOfAllAppend(x: Type, ts: seq<Type>, u: Type)
    ensures IsBaseOfAll(x, ts + [u]) <==> IsBaseOfAll(x, ts) && IsTypeAssignableFrom(x, u)
  {
    var us := ts + [u];
    assert us[|ts|] == u;
    assert forall j :: 0 <= j < |ts| ==> us[j] == ts[j];
  }

  /** Appending an input wider than the lowest base type `r` moves the
      result up to the new input. */
  lemma AddWiderInput(ts: seq<Type>, r: Type, u: Type)
    requires GetLowestBaseType(ts) == Succeed(r) && IsTypeAssignableFrom(u, r)
    ensures GetLowestBaseType(ts + [u]) == Succeed(u)
  {
    var us := ts + [u];
    assert u in us by { assert us[|ts|] == u; }
    assert IsBaseOfAll(u, ts) by {
      forall j | 0 <= j < |ts| ensures IsTypeAssignableFrom(u, ts[j]) {
        AssignableTransitive(u, r, ts[j]);
      }
    }
    BaseOfAllAppend(u, ts, u);
    LowestBaseIsBaseOfAll(us, u);
  }

  /** Appending an input narrower than the lowest base type `r` keeps `r`. */
  lemma AddNarrowerInput(ts: seq<Type>, r: Type, u: Type)
    requires GetLowestBaseType(ts) == Succeed(r) && IsTypeAssignableFrom(r, u)
    ensures GetLowestBaseType(ts + [u]) == Succeed(r)
  {
    var us := ts + [u];
    assert r in us;
    BaseOfAllAppend(r, ts, u);
    LowestBaseIsBaseOfAll(us, r);
  }

  /** Appending an input unrelated to the lowest base type `r`, in either
      direction, makes the search fail. */
  lemma AddUnrelatedInput(ts: seq<Type>, r: Type, u: Type)
    requires GetLowestBaseType(ts) == Succeed(r)
    requires !IsTypeAssignableFrom(u, r) && !IsTypeAssignableFrom(r, u)
    ensures GetLowestBaseType(ts + [u]) == Fail
  {
    var us := ts + [u];
    var res := GetLowestBaseType(us);
    if res.Succeed? {
      var x := res.result;
      BaseOfAllAppend(x, ts, u);
      if x == u {
        assert false;
      } else {
        assert x in ts;
        BaseOfAllUnique(x, r, ts);
        assert false;
      }
    }
  }

  /** Appending one input `u` to a non-empty list with no lowest base type:
      the search now succeeds exactly when `u` is a base of every earlier
      input, and then `u` is the result. */
  lemma AddInputAfterFailure(ts: seq<Type>, u: Type)
    requires |ts| > 0 && GetLowestBaseType(ts) == Fail
    ensures IsBaseOfAll(u, ts) ==> GetLowestBaseType(ts + [u]) == Succeed(u)
    ensures !IsBaseOfAll(u, ts) ==> GetLowestBaseType(ts + [u]) == Fail
  {
    var us := ts + [u];
    assert us[|ts|] == u;
    BaseOfAllAppend(u, ts, u);
    if IsBaseOfAll(u, ts) {
      LowestBaseIsBaseOfAll(us, u);
    } else {
      NoBaseOfAllAppend(ts, u);
      NoBaseOfAllFails(us);
    }
  }

  /** Appending an input that is not a base of the others to a list with no
      base of all keeps it without one. */
  lemma NoBaseOfAllAppend(ts: seq<Type>, u: Type)
    requires forall i :: 0 <= i < |ts| ==> !IsBaseOfAll(ts[i], ts)
    requires !IsBaseOfAll(u, ts)
    ensures forall i :: 0 <= i < |ts + [u]| ==> !IsBaseOfAll((ts + [u])[i], ts + [u])
  {
    var us := ts + [u];
    forall i | 0 <= i < |us| ensures !IsBaseOfAll(us[i], us) {
      BaseOfAllAppend(us[i], ts, u);
      if i < |ts| {
        assert us[i] == ts[i];
      }
    }
  }
}

=== FILE: matching.dfy ===
/** Structural matching of a candidate type against a pattern type that may
    contain free generic parameters, collecting what each parameter was
    bound to. */
module Matching {
  import opened Types
  import opened Assignability

  /** Parameter name to the candidate types bound to it, in binding order. */
  type Bindings = map<string, seq<Type>>

  /** The types bound to `n` so far (none when `n` is unbound). */
  function BoundTo(b: Bindings, n: string): (ts: seq<Type>) {
    if n in b then b[n] else []
  }

  /** Record `t` under `n`, after whatever `n` was already bound to. */
  function Bind(b: Bindings, n: string, t: Type): (b': Bindings)
    ensures b'.Keys == b.Keys + {n}
    ensures b'[n] == BoundTo(b, n) + [t]
    ensures forall k :: k in b && k != n ==> b'[k] == b[k]
  {
    b[n := BoundTo(b, n) + [t]]
  }

  /** `b'` keeps every binding of `b`, only ever appending to it. */
  predicate Extends(b: Bindings, b': Bindings) {
    && b.Keys <= b'.Keys
    && forall k :: k in b ==> b[k] <= b'[k]
  }

  lemma ExtendsTransitive(b0: Bindings, b1: Bindings, b2: Bindings)
    requires Extends(b0, b1) && Extends(b1, b2)
    ensures Extends(b0, b2)
  {
    forall k | k in b0 ensures b0[k] <= b2[k] {
      assert b0[k] <= b1[k] && b1[k] <= b2[k];
    }
  }

  /** Does `candidate` match `pattern`? The result pairs the answer with the
      bindings after the match.

      A pattern with no free parameter is matched by assignability (by
      equality when `variance` is off) and binds nothing. A free parameter
      matches anything and records the candidate under its name. An open
      generic pattern is matched through the candidate's own ancestry
      (`MatchOpen`). When that fails at the top level with variance on, a
      generic candidate is tried the other way round: against the first
      instantiation of the candidate's definition in the pattern's own
      ancestry (`MatchReverse`), so that `IList<int>` matches `List<T>`
      through `List<T>`'s interface `IList<T>`. Generic arguments are matched
      with variance off, so neither search nor the reverse attempt happens
      below the top level. A failed attempt does not undo the bindings it
      made. */
  function MatchType(candidate: Type, pattern: Type, bindings: Bindings, variance: bool): (r: (bool, Bindings))
    ensures Extends(bindings, r.1)
    ensures r.1.Keys <= bindings.Keys + ParamNames(pattern)
    ensures forall k :: k in r.1 && k !in bindings ==> |r.1[k]| > 0
    ensures r.0 ==> ParamNames(pattern) <= r.1.Keys
    ensures !IsOpen(pattern) ==> r.1 == bindings
    ensures !IsOpen(pattern) && variance ==> (r.0 <==> IsTypeAssignableFrom(pattern, candidate))
    ensures !IsOpen(pattern) && !variance ==> (r.0 <==> candidate == pattern)
    ensures pattern.Named? && IsOpen(pattern) && !variance && r.0 ==> InstanceOf(candidate, pattern.name)
    decreases Size(pattern), candidate, 3, 0
  {
    if !IsOpen(pattern) then
      (if variance then IsTypeAssignableFrom(pattern, candidate) else candidate == pattern, bindings)
    else
      match pattern
      case Param(n) => (true, Bind(bindings, n, candidate))
      case Named(_, _, _, _) =>
        var up := MatchOpen(candidate, pattern, bindings, variance);
        if up.0 || !variance || !candidate.IsGeneric() then up
        else
          var down := MatchReverse(candidate, pattern, up.1);
          ExtendsTransitive(bindings, up.1, down.1);
          down
  }

  /** Match an open generic pattern through the candidate's ancestry: the
      candidate itself when it instantiates the pattern's definition;
      otherwise, when variance is on, its interfaces in order and then its
      base type, each searched in full. The first instantiation whose
      arguments match decides; an earlier instantiation that failed on its
      arguments is passed over, and the bindings it wrote remain. */
  function MatchOpen(candidate: Type, pattern: Type, bindings: Bindings, variance: bool): (r: (bool, Bindings))
    requires pattern.Named?
    ensures Extends(bindings, r.1)
    ensures r.1.Keys <= bindings.Keys + ParamNames(pattern)
    ensures forall k :: k in r.1 && k !in bindings ==> |r.1[k]| > 0
    ensures r.0 ==> ParamNames(pattern) <= r.1.Keys
    decreases Size(pattern), candidate, 2, 0
  {
    if candidate.Named? && InstanceOf(candidate, pattern.name) then
      MatchArguments(candidate, pattern, 0, bindings)
    else if !variance then
      (false, bindings)
    else
      MatchAncestors(candidate, pattern, 0, bindings)
  }

  /** Match a generic candidate against the first instantiation `a` of its
      own definition in the ancestry of the pattern, pairing the candidate's
      arguments with `a`'s. The attempt fails unless `a` mentions exactly the
      pattern's free parameters, so that a success determines every one of
      them and nothing else. */
  function MatchReverse(candidate: Type, pattern: Type, bindings: Bindings): (r: (bool, Bindings))
    requires candidate.Named? && pattern.Named?
    ensures Extends(bindings, r.1)
    ensures r.1.Keys <= bindings.Keys + ParamNames(pattern)
    ensures forall k :: k in r.1 && k !in bindings ==> |r.1[k]| > 0
    ensures r.0 ==> ParamNames(pattern) <= r.1.Keys
    ensures r.0 ==> ReachesDefinition(pattern, candidate.name)
    decreases Size(pattern), candidate, 2, 0
  {
    match FindInstance(pattern, candidate.name)
    case None => (false, bindings)
    case Some(a) =>
      if ParamNames(a) == ParamNames(pattern) then MatchArguments(candidate, a, 0, bindings)
      else (false, bindings)
  }

  /** Match `candidate.args[i..]` against `pattern.args[i..]` position by
      position, with variance off; an arity mismatch fails. */
  function MatchArguments(candidate: Type, pattern: Type, i: nat, bindings: Bindings): (r: (bool, Bindings))
    requires candidate.Named? && pattern.Named? && i <= |pattern.args|
    ensures Extends(bindings, r.1)
    ensures r.1.Keys <= bindings.Keys + ArgumentParamNames(pattern, i)
    ensures forall k :: k in r.1 && k !in bindings ==> |r.1[k]| > 0
    ensures r.0 ==> ArgumentParamNames(pattern, i) <= r.1.Keys
    ensures r.0 ==> |candidate.args| == |pattern.args|
    decreases Size(pattern), candidate, 1, |pattern.args| - i
  {
    if |candidate.args| != |pattern.args| then (false, bindings)
    else if i == |pattern.args| then (true, bindings)
    else
      var first := MatchType(candidate.args[i], pattern.args[i], bindings, false);
      if !first.0 then (false, first.1)
      else
        var rest := MatchArguments(candidate, pattern, i + 1, first.1);
        ExtendsTransitive(bindings, first.1, rest.1);
        rest
  }

  /** Search the ancestors of `candidate` for a match of the open pattern:
      its interfaces from the `i`-th on, then its base type; the first
      success wins. */
  function MatchAncestors(candidate: Type, pattern: Type, i: nat, bindings: Bindings): (r: (bool, Bindings))
    requires pattern.Named?
    requires candidate.Named? ==> i <= |candidate.interfaces|
    ensures Extends(bindings, r.1)
    ensures r.1.Keys <= bindings.Keys + ParamNames(pattern)
    ensures forall k :: k in r.1 && k !in bindings ==> |r.1[k]| > 0
    ensures r.0 ==> ParamNames(pattern) <= r.1.Keys
    decreases Size(pattern), candidate, 1, if candidate.Named? then |candidate.interfaces| - i else 0
  {
    if candidate.Param? then (false, bindings)
    else if i < |candidate.interfaces| then
      var first := MatchOpen(candidate.interfaces[i], pattern, bindings, true);
      if first.0 then first
      else
        var rest := MatchAncestors(candidate, pattern, i + 1, first.1);
        ExtendsTransitive(bindings, first.1, rest.1);
        rest
    else if candidate.base.Some? then
      MatchOpen(candidate.base.value, pattern, bindings, true)
    else
      (false, bindings)
  }

  /** Some generic ancestor of `candidate` has a definition that the
      ancestry of `pattern` reaches. */
  ghost predicate SharesDefinition(candidate: Type, pattern: Type) {
    exists a :: IsTypeAssignableFrom(a, candidate) && a.IsGeneric() && ReachesDefinition(pattern, a.name)
  }

  /** An open generic pattern is only ever matched through a generic
      definition that the candidate's ancestry and the pattern's ancestry
      have in common. */
  lemma MatchNeedsSharedDefinition(candidate: Type, pattern: Type, bindings: Bindings, variance: bool)
    requires pattern.Named? && IsOpen(pattern)
    requires MatchType(candidate, pattern, bindings, variance).0
    ensures SharesDefinition(candidate, pattern)
  {
    if MatchOpen(candidate, pattern, bindings, variance).0 {
      OpenMatchNeedsSharedDefinition(candidate, pattern, bindings, variance);
    } else {
      assert IsTypeAssignableFrom(candidate, candidate);
    }
  }

  lemma {:induction false} OpenMatchNeedsSharedDefinition(candidate: Type, pattern: Type, bindings: Bindings, variance: bool)
    requires pattern.Named?
    requires MatchOpen(candidate, pattern, bindings, variance).0
    ensures SharesDefinition(candidate, pattern)
    decreases candidate, 1
  {
    if candidate.Named? && InstanceOf(candidate, pattern.name) {
      assert IsTypeAssignableFrom(candidate, candidate);
      assert ReachesDefinition(pattern, candidate.name);
    } else {
      AncestorMatchNeedsSharedDefinition(candidate, pattern, 0, bindings);
    }
  }

  lemma {:induction false} AncestorMatchNeedsSharedDefinition(candidate: Type, pattern: Type, i: nat, bindings: Bindings)
    requires pattern.Named?
    requires candidate.Named? ==> i <= |candidate.interfaces|
    requires MatchAncestors(candidate, pattern, i, bindings).0
    ensures SharesDefinition(candidate, pattern)
    decreases candidate, 0, if candidate.Named? then |candidate.interfaces| - i else 0
  {
    if i < |candidate.interfaces| {
      var first := MatchOpen(candidate.interfaces[i], pattern, bindings, true);
      if first.0 {
        OpenMatchNeedsSharedDefinition(candidate.interfaces[i], pattern, bindings, true);
        var a :| IsTypeAssignableFrom(a, candidate.interfaces[i]) && a.IsGeneric() && ReachesDefinition(pattern, a.name);
        AssignableStep(a, candidate);
      } else {
        AncestorMatchNeedsSharedDefinition(candidate, pattern, i + 1, first.1);
      }
    } else {
      OpenMatchNeedsSharedDefinition(candidate.base.value, pattern, bindings, true);
      var a :| IsTypeAssignableFrom(a, candidate.base.value) && a.IsGeneric() && ReachesDefinition(pattern, a.name);
      assert IsTypeAssignableFrom(a, candidate);
    }
  }

  /** A candidate whose ancestry holds no instantiation of the pattern's
      definition fails the search and binds nothing. */
  lemma {:induction false} NoInstanceNoMatch(candidate: Type, pattern: Type, bindings: Bindings)
    requires pattern.Named? && !ReachesDefinition(candidate, pattern.name)
    ensures MatchOpen(candidate, pattern, bindings, true) == (false, bindings)
    decreases candidate, 1
  {
    if candidate.Named? {
      NoInstanceAboveNoMatch(candidate, pattern, 0, bindings);
    }
  }

  lemma {:induction false} NoInstanceAboveNoMatch(candidate: Type, pattern: Type, i: nat, bindings: Bindings)
    requires pattern.Named? && candidate.Named? && i <= |candidate.interfaces|
    requires FindInstanceAbove(candidate, pattern.name, i).None?
    ensures MatchAncestors(candidate, pattern, i, bindings) == (false, bindings)
    decreases candidate, 0, |candidate.interfaces| - i
  {
    if i < |candidate.interfaces| {
      NoInstanceNoMatch(candidate.interfaces[i], pattern, bindings);
      NoInstanceAboveNoMatch(candidate, pattern, i + 1, bindings);
    } else if candidate.base.Some? {
      NoInstanceNoMatch(candidate.base.value, pattern, bindings);
    }
  }

  /** The search stops at the first instantiation of the pattern's
      definition in the candidate's ancestry: when that instantiation's
      arguments match, the search returns exactly their match. */
  lemma {:induction false} MatchOpenAtInstance(candidate: Type, pattern: Type, instance: Type, bindings: Bindings)
    requires pattern.Named? && FindInstance(candidate, pattern.name) == Some(instance)
    requires MatchArguments(instance, pattern, 0, bindings).0
    ensures MatchOpen(candidate, pattern, bindings, true) == MatchArguments(instance, pattern, 0, bindings)
    decreases candidate, 1
  {
    if !InstanceOf(candidate, pattern.name) {
      MatchAncestorsAtInstance(candidate, pattern, 0, instance, bindings);
    }
  }

  lemma {:induction false} MatchAncestorsAtInstance(candidate: Type, pattern: Type, i: nat, instance: Type, bindings: Bindings)
    requires pattern.Named? && candidate.Named? && i <= |candidate.interfaces|
    requires FindInstanceAbove(candidate, pattern.name, i) == Some(instance)
    requires MatchArguments(instance, pattern, 0, bindings).0
    ensures MatchAncestors(candidate, pattern, i, bindings) == MatchArguments(instance, pattern, 0, bindings)
    decreases candidate, 0, |candidate.interfaces| - i
  {
    if i < |candidate.interfaces| {
      if FindInstance(candidate.interfaces[i], pattern.name).Some? {
        MatchOpenAtInstance(candidate.interfaces[i], pattern, instance, bindings);
      } else {
        NoInstanceNoMatch(candidate.interfaces[i], pattern, bindings);
        MatchAncestorsAtInstance(candidate, pattern, i + 1, instance, bindings);
      }
    } else {
      MatchOpenAtInstance(candidate.base.value, pattern, instance, bindings);
    }
  }

  /** A free parameter matches any candidate and records it after what the
      parameter was bound to before; every other binding is untouched. */
  lemma MatchFreeParameterBinds(candidate: Type, n: string, bindings: Bindings, variance: bool)
    ensures MatchType(candidate, Param(n), bindings, variance).0
    ensures MatchType(candidate, Param(n), bindings, variance).1.Keys == bindings.Keys + {n}
    ensures MatchType(candidate, Param(n), bindings, variance).1[n] == BoundTo(bindings, n) + [candidate]
    ensures forall k :: k in bindings && k != n ==> MatchType(candidate, Param(n), bindings, variance).1[k] == bindings[k]
  {
  }

  /** Reference definition of a positional match, for any pattern: a closed
      pattern fits only itself, a free parameter fits anything, and an open
      generic pattern fits an instantiation of its own definition whose
      arguments fit the pattern's arguments position by position. Nothing
      requires two occurrences of one parameter to agree. */
  predicate Fits(candidate: Type, pattern: Type)
    decreases pattern, 1
  {
    if !IsOpen(pattern) then candidate == pattern
    else match pattern
      case Param(_) => true
      case Named(_, _, _, _) =>
        && candidate.Named? && InstanceOf(candidate, pattern.name)
        && |candidate.args| == |pattern.args|
        && ArgumentsFit(candidate, pattern, 0)
  }

  /** `candidate.args[i..]` fit `pattern.args[i..]` position by position. */
  predicate ArgumentsFit(candidate: Type, pattern: Type, i: nat)
    requires candidate.Named? && pattern.Named? && |candidate.args| == |pattern.args|
    decreases pattern, 0, |pattern.args| - i
  {
    i >= |pattern.args| || (Fits(candidate.args[i], pattern.args[i]) && ArgumentsFit(candidate, pattern, i + 1))
  }

  lemma {:induction false} ArgumentsFitIff(candidate: Type, pattern: Type, i: nat)
    requires candidate.Named? && pattern.Named? && |candidate.args| == |pattern.args|
    ensures ArgumentsFit(candidate, pattern, i)
            <==> forall j :: i <= j < |pattern.args| ==> Fits(candidate.args[j], pattern.args[j])
    decreases |pattern.args| - i
  {
    if i < |pattern.args| {
      ArgumentsFitIff(candidate, pattern, i + 1);
    }
  }

  /** With variance off, as for every generic argument, a match succeeds
      exactly when the candidate fits the pattern, whatever the bindings so
      far: the bindings never decide success. */
  lemma {:induction false} MatchIffFits(candidate: Type, pattern: Type, bindings: Bindings)
    ensures MatchType(candidate, pattern, bindings, false).0 <==> Fits(candidate, pattern)
    decreases pattern, 1
  {
    if IsOpen(pattern) && pattern.Named? && candidate.Named? && InstanceOf(candidate, pattern.name)
       && |candidate.args| == |pattern.args| {
      ArgumentsMatchIffFit(candidate, pattern, 0, bindings);
    }
  }

  lemma {:induction false} ArgumentsMatchIffFit(candidate: Type, pattern: Type, i: nat, bindings: Bindings)
    requires candidate.Named? && pattern.Named? && |candidate.args| == |pattern.args| && i <= |pattern.args|
    ensures MatchArguments(candidate, pattern, i, bindings).0 <==> ArgumentsFit(candidate, pattern, i)
    decreases pattern, 0, |pattern.args| - i
  {
    if i < |pattern.args| {
      MatchIffFits(candidate.args[i], pattern.args[i], bindings);
      var first := MatchType(candidate.args[i], pattern.args[i], bindings, false);
      ArgumentsMatchIffFit(candidate, pattern, i + 1, first.1);
    }
  }

  /** At the top level, an instantiation of an open pattern's own definition
      matches it exactly when its arguments fit the pattern's position by
      position: a closed argument must be equal, a nested open argument must
      instantiate its own definition, and a free parameter takes anything.
      The reverse attempt adds nothing here, since it pairs with the pattern
      itself. */
  lemma MatchInstanceIffFits(candidate: Type, pattern: Type, bindings: Bindings)
    requires pattern.Named? && IsOpen(pattern) && candidate.Named? && InstanceOf(candidate, pattern.name)
    ensures MatchType(candidate, pattern, bindings, true).0
            <==> |candidate.args| == |pattern.args|
                 && forall j :: 0 <= j < |pattern.args| ==> Fits(candidate.args[j], pattern.args[j])
  {
    var up := MatchOpen(candidate, pattern, bindings, true);
    assert up == MatchArguments(candidate, pattern, 0, bindings);
    assert FindInstance(pattern, candidate.name) == Some(pattern);
    if |candidate.args| == |pattern.args| {
      ArgumentsFitIff(candidate, pattern, 0);
      ArgumentsMatchIffFit(candidate, pattern, 0, bindings);
      ArgumentsMatchIffFit(candidate, pattern, 0, up.1);
    }
  }

  /** A generic type definition used as a pattern: its arguments are
      distinct free parameters, as in `IDictionary<TKey, TValue>`. */
  predicate IsDefinitionPattern(p: Type) {
    && p.IsGeneric()
    && (forall j :: 0 <= j < |p.args| ==> p.args[j].Param?)
    && (forall j, k :: 0 <= j < k < |p.args| ==> p.args[j].name != p.args[k].name)
  }

  /** The names of the parameters of `p.args[i..]`. */
  function ParamsFrom(p: Type, i: nat): (ns: set<string>)
    requires p.Named? && i <= |p.args|
  {
    set j | i <= j < |p.args| :: p.args[j].name
  }

  lemma ParamsFromSplit(p: Type, i: nat)
    requires IsDefinitionPattern(p) && i < |p.args|
    ensures ParamsFrom(p, i) == {p.args[i].name} + ParamsFrom(p, i + 1)
    ensures p.args[i].name !in ParamsFrom(p, i + 1)
  {
    assert p.args[i].name in ParamsFrom(p, i);
  }

  /** Against a definition pattern, each argument position binds its
      parameter and never fails. */
  lemma ArgumentStep(candidate: Type, pattern: Type, i: nat, bindings: Bindings)
    requires IsDefinitionPattern(pattern) && i < |pattern.args|
    requires candidate.Named? && |candidate.args| == |pattern.args|
    ensures MatchArguments(candidate, pattern, i, bindings)
            == MatchArguments(candidate, pattern, i + 1, Bind(bindings, pattern.args[i].name, candidate.args[i]))
  {
    assert IsOpen(pattern.args[i]);
  }

  /** Bind each parameter of `pattern.args[i..]` to the candidate argument
      in the same position, left to right. */
  function BindPositions(bindings: Bindings, candidate: Type, pattern: Type, i: nat): (b: Bindings)
    requires IsDefinitionPattern(pattern) && i <= |pattern.args|
    requires candidate.Named? && |candidate.args| == |pattern.args|
    decreases |pattern.args| - i
  {
    if i == |pattern.args| then bindings
    else BindPositions(Bind(bindings, pattern.args[i].name, candidate.args[i]), candidate, pattern, i + 1)
  }

  lemma {:induction false} ArgumentsAreBindPositions(candidate: Type, pattern: Type, i: nat, bindings: Bindings)
    requires IsDefinitionPattern(pattern) && i <= |pattern.args|
    requires candidate.Named? && |candidate.args| == |pattern.args|
    ensures MatchArguments(candidate, pattern, i, bindings) == (true, BindPositions(bindings, candidate, pattern, i))
    decreases |pattern.args| - i
  {
    if i < |pattern.args| {
      ArgumentStep(candidate, pattern, i, bindings);
      ArgumentsAreBindPositions(candidate, pattern, i + 1, Bind(bindings, pattern.args[i].name, candidate.args[i]));
    }
  }

  lemma {:induction false} BindPositionsKeys(bindings: Bindings, candidate: Type, pattern: Type, i: nat)
    requires IsDefinitionPattern(pattern) && i <= |pattern.args|
    requires candidate.Named? && |candidate.args| == |pattern.args|
    ensures BindPositions(bindings, candidate, pattern, i).Keys == bindings.Keys + ParamsFrom(pattern, i)
    ensures forall k :: k in bindings && k !in ParamsFrom(pattern, i) ==>
              BindPositions(bindings, candidate, pattern, i)[k] == bindings[k]
    decreases |pattern.args| - i
  {
    if i < |pattern.args| {
      var n := pattern.args[i].name;
      var b1 := Bind(bindings, n, candidate.args[i]);
      var r := BindPositions(b1, candidate, pattern, i + 1);
      assert r == BindPositions(bindings, candidate, pattern, i);
      BindPositionsKeys(b1, candidate, pattern, i + 1);
      ParamsFromSplit(pattern, i);
      assert r.Keys == bindings.Keys + ParamsFrom(pattern, i);
      forall k | k in bindings && k !in ParamsFrom(pattern, i) ensures r[k] == bindings[k] {
        assert k != n && k !in ParamsFrom(pattern, i + 1);
      }
    }
  }

  lemma {:induction false} BindPositionsValues(bindings: Bindings, candidate: Type, pattern: Type, i: nat)
    requires IsDefinitionPattern(pattern) && i <= |pattern.args|
    requires candidate.Named? && |candidate.args| == |pattern.args|
    ensures forall j :: i <= j < |pattern.args| ==>
              && pattern.args[j].name in BindPositions(bindings, candidate, pattern, i)
              && BindPositions(bindings, candidate, pattern, i)[pattern.args[j].name]
                 == BoundTo(bindings, pattern.args[j].name) + [candidate.args[j]]
    decreases |pattern.args| - i
  {
    if i < |pattern.args| {
      var n := pattern.args[i].name;
      var b1 := Bind(bindings, n, candidate.args[i]);
      var r := BindPositions(b1, candidate, pattern, i + 1);
      assert r == BindPositions(bindings, candidate, pattern, i);
      BindPositionsValues(b1, candidate, pattern, i + 1);
      BindPositionsKeys(b1, candidate, pattern, i + 1);
      ParamsFromSplit(pattern, i);
      forall j | i <= j < |pattern.args|
        ensures pattern.args[j].name in r
        ensures r[pattern.args[j].name] == BoundTo(bindings, pattern.args[j].name) + [candidate.args[j]]
      {
        if j == i {
          assert r[n] == b1[n];
        } else {
          assert pattern.args[j].name != n;
        }
      }
    }
  }

  /** Matching the arguments of an instantiation against those of a
      definition pattern succeeds and binds each parameter, after what it was
      bound to before, to the argument in its position; other bindings are
      untouched. */
  lemma DefinitionArguments(candidate: Type, pattern: Type, bindings: Bindings)
    requires IsDefinitionPattern(pattern)
    requires candidate.Named? && |candidate.args| == |pattern.args|
    ensures MatchArguments(candidate, pattern, 0, bindings).0
    ensures MatchArguments(candidate, pattern, 0, bindings).1.Keys == bindings.Keys + ParamsFrom(pattern, 0)
    ensures forall j :: 0 <= j < |pattern.args| ==>
              && pattern.args[j].name in MatchArguments(candidate, pattern, 0, bindings).1
              && MatchArguments(candidate, pattern, 0, bindings).1[pattern.args[j].name]
                 == BoundTo(bindings, pattern.args[j].name) + [candidate.args[j]]
    ensures forall k :: k in bindings && k !in ParamsFrom(pattern, 0) ==>
              MatchArguments(candidate, pattern, 0, bindings).1[k] == bindings[k]
  {
    var r := MatchArguments(candidate, pattern, 0, bindings);
    var b := BindPositions(bindings, candidate, pattern, 0);
    assert r == (true, b) by {
      ArgumentsAreBindPositions(candidate, pattern, 0, bindings);
    }
    BindPositionsKeys(bindings, candidate, pattern, 0);
    BindPositionsValues(bindings, candidate, pattern, 0);
  }

  /** A successful search through the candidate's ancestry is the answer. */
  lemma OpenSuccessDecides(candidate: Type, pattern: Type, bindings: Bindings, variance: bool)
    requires pattern.Named? && IsOpen(pattern) && MatchOpen(candidate, pattern, bindings, variance).0
    ensures MatchType(candidate, pattern, bindings, variance) == MatchOpen(candidate, pattern, bindings, variance)
  {
  }

  /** Matching an instantiation of a generic definition against that
      definition succeeds, with variance on or off, and binds each parameter,
      after what it was bound to before, to the argument in its position;
      other bindings are untouched. */
  lemma MatchInstanceOfDefinition(candidate: Type, pattern: Type, bindings: Bindings, variance: bool)
    requires IsDefinitionPattern(pattern)
    requires candidate.Named? && candidate.name == pattern.name && |candidate.args| == |pattern.args|
    ensures MatchType(candidate, pattern, bindings, variance).0
    ensures MatchType(candidate, pattern, bindings, variance).1.Keys == bindings.Keys + ParamsFrom(pattern, 0)
    ensures forall j :: 0 <= j < |pattern.args| ==>
              && pattern.args[j].name in MatchType(candidate, pattern, bindings, variance).1
              && MatchType(candidate, pattern, bindings, variance).1[pattern.args[j].name]
                 == BoundTo(bindings, pattern.args[j].name) + [candidate.args[j]]
    ensures forall k :: k in bindings && k !in ParamsFrom(pattern, 0) ==>
              MatchType(candidate, pattern, bindings, variance).1[k] == bindings[k]
  {
    var r := MatchType(candidate, pattern, bindings, variance);
    assert r == MatchArguments(candidate, pattern, 0, bindings) by {
      MatchAtOwnInstance(candidate, pattern, bindings, variance);
    }
    DefinitionArguments(candidate, pattern, bindings);
  }

  lemma MatchAtOwnInstance(candidate: Type, pattern: Type, bindings: Bindings, variance: bool)
    requires IsDefinitionPattern(pattern)
    requires candidate.Named? && candidate.name == pattern.name && |candidate.args| == |pattern.args|
    ensures MatchType(candidate, pattern, bindings, variance) == MatchArguments(candidate, pattern, 0, bindings)
  {
    var m := MatchArguments(candidate, pattern, 0, bindings);
    assert m.0 by {
      DefinitionArguments(candidate, pattern, bindings);
    }
    assert MatchOpen(candidate, pattern, bindings, variance) == m;
    assert IsOpen(pattern.args[0]);
    OpenSuccessDecides(candidate, pattern, bindings, variance);
  }

  /** Generic assignability is enough for a match: a candidate assignable to
      some instantiation of a definition pattern's definition matches the
      pattern with variance on, provided the first such instantiation has the
      pattern's arity; each parameter is then bound to that instantiation's
      argument in its position. */
  lemma MatchThroughAncestry(candidate: Type, pattern: Type, bindings: Bindings)
    requires IsDefinitionPattern(pattern) && IsAssignableFromGeneric(pattern, candidate)
    requires |FindInstance(candidate, pattern.name).value.args| == |pattern.args|
    ensures MatchType(candidate, pattern, bindings, true).0
    ensures MatchType(candidate, pattern, bindings, true).1.Keys == bindings.Keys + ParamsFrom(pattern, 0)
    ensures forall j :: 0 <= j < |pattern.args| ==>
              && pattern.args[j].name in MatchType(candidate, pattern, bindings, true).1
              && MatchType(candidate, pattern, bindings, true).1[pattern.args[j].name]
                 == BoundTo(bindings, pattern.args[j].name) + [FindInstance(candidate, pattern.name).value.args[j]]
    ensures forall k :: k in bindings && k !in ParamsFrom(pattern, 0) ==>
              MatchType(candidate, pattern, bindings, true).1[k] == bindings[k]
  {
    MatchAtFirstInstance(candidate, pattern, bindings);
    DefinitionArguments(FindInstance(candidate, pattern.name).value, pattern, bindings);
  }

  lemma MatchAtFirstInstance(candidate: Type, pattern: Type, bindings: Bindings)
    requires IsDefinitionPattern(pattern) && IsAssignableFromGeneric(pattern, candidate)
    requires |FindInstance(candidate, pattern.name).value.args| == |pattern.args|
    ensures MatchType(candidate, pattern, bindings, true)
            == MatchArguments(FindInstance(candidate, pattern.name).value, pattern, 0, bindings)
  {
    var a := FindInstance(candidate, pattern.name).value;
    var m := MatchArguments(a, pattern, 0, bindings);
    assert m.0 by {
      DefinitionArguments(a, pattern, bindings);
    }
    assert MatchOpen(candidate, pattern, bindings, true) == m by {
      MatchOpenAtInstance(candidate, pattern, FindInstance(candidate, pattern.name).value, bindings);
    }
    OpenSuccessDecides(candidate, pattern, bindings, true);
  }

  /** The reverse attempt: a generic candidate whose definition the
      candidate-side search cannot reach, but the pattern's ancestry can,
      matches with variance on when the first instantiation `a` of its
      definition above the pattern is a definition pattern with the
      pattern's parameters; each parameter of `a` is bound to the
      candidate's argument in the same position of `a`. */
  lemma MatchReverseBinds(candidate: Type, pattern: Type, bindings: Bindings)
    requires pattern.Named? && IsOpen(pattern) && candidate.IsGeneric()
    requires !ReachesDefinition(candidate, pattern.name)
    requires FindInstance(pattern, candidate.name).Some?
    requires IsDefinitionPattern(FindInstance(pattern, candidate.name).value)
    requires ParamNames(FindInstance(pattern, candidate.name).value) == ParamNames(pattern)
    requires |candidate.args| == |FindInstance(pattern, candidate.name).value.args|
    ensures MatchType(candidate, pattern, bindings, true).0
    ensures MatchType(candidate, pattern, bindings, true).1.Keys
            == bindings.Keys + ParamsFrom(FindInstance(pattern, candidate.name).value, 0)
    ensures forall j :: 0 <= j < |FindInstance(pattern, candidate.name).value.args| ==>
              && FindInstance(pattern, candidate.name).value.args[j].name in MatchType(candidate, pattern, bindings, true).1
              && MatchType(candidate, pattern, bindings, true).1[FindInstance(pattern, candidate.name).value.args[j].name]
                 == BoundTo(bindings, FindInstance(pattern, candidate.name).value.args[j].name) + [candidate.args[j]]
    ensures forall k :: k in bindings && k !in ParamsFrom(FindInstance(pattern, candidate.name).value, 0) ==>
              MatchType(candidate, pattern, bindings, true).1[k] == bindings[k]
  {
    var a := FindInstance(pattern, candidate.name).value;
    NoInstanceNoMatch(candidate, pattern, bindings);
    DefinitionArguments(candidate, a, bindings);
  }

  /** The free parameters of a definition pattern are its arguments' names. */
  lemma DefinitionParamNames(pattern: Type)
    requires IsDefinitionPattern(pattern)
    ensures ParamNames(pattern) == ParamsFrom(pattern, 0)
  {
    DefinitionArgumentNames(pattern, 0);
  }

  lemma {:induction false} DefinitionArgumentNames(pattern: Type, i: nat)
    requires IsDefinitionPattern(pattern) && i <= |pattern.args|
    ensures ArgumentParamNames(pattern, i) == ParamsFrom(pattern, i)
    decreases |pattern.args| - i
  {
    if i < |pattern.args| {
      DefinitionArgumentNames(pattern, i + 1);
      ParamsFromSplit(pattern, i);
    }
  }

  /** The free parameters of a two-parameter definition pattern. */
  lemma TwoParamNames(p: Type)
    requires IsDefinitionPattern(p) && |p.args| == 2
    ensures ParamNames(p) == {p.args[0].name, p.args[1].name}
  {
    DefinitionParamNames(p);
    assert p.args[0].name in ParamsFrom(p, 0) && p.args[1].name in ParamsFrom(p, 0);
  }

  /** The bindings a definition-pattern match leaves when it starts from no
      bindings and binds the one parameter of `q` to the argument of `t`. */
  lemma OneBindingOf(r: (bool, Bindings), b: Bindings, q: Type, t: Type)
    requires b == map[] && IsDefinitionPattern(q) && |q.args| == 1 && t.Named? && |t.args| == 1
    requires r.0 && r.1.Keys == b.Keys + ParamsFrom(q, 0)
    requires forall j :: 0 <= j < |q.args| ==>
               q.args[j].name in r.1 && r.1[q.args[j].name] == BoundTo(b, q.args[j].name) + [t.args[j]]
    ensures r == (true, map[q.args[0].name := [t.args[0]]])
  {
    var k := q.args[0].name;
    var m := map[k := [t.args[0]]];
    assert r.1.Keys == m.Keys by {
      assert k in ParamsFrom(q, 0);
    }
    assert r.1[k] == m[k];
    assert r.1 == m;
  }

  /** The same for a definition pattern `q` with two parameters. */
  lemma TwoBindingsOf(r: (bool, Bindings), b: Bindings, q: Type, t: Type)
    requires b == map[] && IsDefinitionPattern(q) && |q.args| == 2 && t.Named? && |t.args| == 2
    requires r.0 && r.1.Keys == b.Keys + ParamsFrom(q, 0)
    requires forall j :: 0 <= j < |q.args| ==>
               q.args[j].name in r.1 && r.1[q.args[j].name] == BoundTo(b, q.args[j].name) + [t.args[j]]
    ensures r == (true, map[q.args[0].name := [t.args[0]], q.args[1].name := [t.args[1]]])
  {
    var k0, k1 := q.args[0].name, q.args[1].name;
    var m := map[k0 := [t.args[0]], k1 := [t.args[1]]];
    assert r.1.Keys == m.Keys by {
      assert k0 in ParamsFrom(q, 0) && k1 in ParamsFrom(q, 0);
    }
    assert r.1[k0] == m[k0];
    assert r.1[k1] == m[k1];
    assert r.1 == m;
  }

  /** `MatchThroughAncestry` from no bindings, for a two-parameter
      definition pattern. */
  lemma TwoParameterMatchThroughAncestry(c: Type, p: Type)
    requires IsDefinitionPattern(p) && |p.args| == 2 && IsAssignableFromGeneric(p, c)
    requires |FindInstance(c, p.name).value.args| == 2
    ensures MatchType(c, p, map[], true)
            == (true, map[p.args[0].name := [FindInstance(c, p.name).value.args[0]],
                          p.args[1].name := [FindInstance(c, p.name).value.args[1]]])
  {
    MatchThroughAncestry(c, p, map[]);
    TwoBindingsOf(MatchType(c, p, map[], true), map[], p, FindInstance(c, p.name).value);
  }

  /** `MatchReverseBinds` from no bindings, for a two-parameter ancestor. */
  lemma TwoParameterReverse(c: Type, p: Type)
    requires p.Named? && IsOpen(p) && c.IsGeneric() && |c.args| == 2
    requires !ReachesDefinition(c, p.name)
    requires FindInstance(p, c.name).Some?
    requires IsDefinitionPattern(FindInstance(p, c.name).value)
    requires ParamNames(FindInstance(p, c.name).value) == ParamNames(p)
    requires |FindInstance(p, c.name).value.args| == 2
    ensures MatchType(c, p, map[], true)
            == (true, map[FindInstance(p, c.name).value.args[0].name := [c.args[0]],
                          FindInstance(p, c.name).value.args[1].name := [c.args[1]]])
  {
    var a := FindInstance(p, c.name).value;
    var none: Bindings := map[];
    var r := MatchType(c, p, none, true);
    assert && r.0 && r.1.Keys == none.Keys + ParamsFrom(a, 0)
           && forall j :: 0 <= j < |a.args| ==>
                a.args[j].name in r.1 && r.1[a.args[j].name] == BoundTo(none, a.args[j].name) + [c.args[j]]
    by {
      MatchReverseBinds(c, p, none);
    }
    TwoBindingsOf(r, none, a, c);
  }
}

=== FILE: matching_examples.dfy ===
/** Examples of `MatchType` that are not assertions of the test fixture:
    where the reverse attempt stops, how it pairs arguments through an
    ancestor of the pattern, how an instantiation matches its own
    definition, how the ancestor search goes past an instantiation whose
    arguments do not match, and how a closed argument position constrains
    the candidate. */
module MatchingExamples {
  import opened Types
  import opened Fixtures
  import opened Assignability
  import opened Matching

  /** `DynamicPublishedContentList` implements `IEnumerable<IPublishedContent>`
      but is not generic, so it does not match `List<T>` either way. */
  lemma ContentListNotAList()
    ensures MatchType(DynamicPublishedContentList, ListDefinition, map[], true) == (false, map[])
  {
    var c := DynamicPublishedContentList;
    assert IsOpen(ListDefinition) by { assert IsOpen(T); }
    assert !ReachesDefinition(c, "List`1") by {
      assert !ReachesDefinition(IEnumerable, "List`1");
      assert !InterfaceReachesDefinition(IEnumerableOf(IPublishedContent), "List`1", 1);
      assert !ReachesDefinition(IEnumerableOf(IPublishedContent), "List`1");
      assert !InterfaceReachesDefinition(c, "List`1", 1);
      assert !ReachesDefinition(Object, "List`1");
      assert !ReachesDefinition(DynamicObject, "List`1");
    }
    NoInstanceNoMatch(c, ListDefinition, map[]);
  }

  /** A pattern whose interface lists its parameters the other way round:
      `Swap<A, B> : IDictionary<B, A>`. */
  const SwapDefinition: Type := Named("Swap`2", [Param("A"), Param("B")], Some(Object), [IDictionaryOf(Param("B"), Param("A"))])

  /** `Swap<A, B>` is open, `IDictionary<int, string>` reaches no `Swap<,>`,
      and the first `IDictionary<,>` above `Swap<A, B>` is `IDictionary<B, A>`. */
  lemma SwapAncestry()
    ensures IsOpen(SwapDefinition)
    ensures !ReachesDefinition(IDictionaryOf(Int32, String), "Swap`2")
    ensures FindInstance(SwapDefinition, "IDictionary`2") == Some(IDictionaryOf(Param("B"), Param("A")))
  {
    var p := SwapDefinition;
    var c := IDictionaryOf(Int32, String);
    var a := IDictionaryOf(Param("B"), Param("A"));
    assert IsOpen(p) by { assert IsOpen(Param("A")); }
    assert !ReachesDefinition(c, "Swap`2") by {
      var kvp := KeyValuePairOf(Int32, String);
      assert !ReachesDefinition(IEnumerable, "Swap`2");
      assert !ReachesDefinition(kvp, "Swap`2");
      assert !InterfaceReachesDefinition(IEnumerableOf(kvp), "Swap`2", 1);
      assert !ReachesDefinition(IEnumerableOf(kvp), "Swap`2");
      assert !InterfaceReachesDefinition(ICollectionOf(kvp), "Swap`2", 1);
      assert !ReachesDefinition(ICollectionOf(kvp), "Swap`2");
      assert !InterfaceReachesDefinition(c, "Swap`2", 1);
    }
    assert FindInstance(a, "IDictionary`2") == Some(a);
    assert FindInstanceAbove(p, "IDictionary`2", 0) == Some(a);
  }

  /** The other-way-round match pairs the candidate's arguments with those of
      the pattern's ancestor, not with the pattern's own: matching
      `IDictionary<int, string>` against `Swap<A, B>` binds `B` to `int` and
      `A` to `string`. */
  lemma MatchReversePairsThroughAncestor()
    ensures MatchType(IDictionaryOf(Int32, String), SwapDefinition, map[], true)
            == (true, map["A" := [String], "B" := [Int32]])
  {
    var p := SwapDefinition;
    var c := IDictionaryOf(Int32, String);
    var a := IDictionaryOf(Param("B"), Param("A"));
    SwapAncestry();
    assert ParamNames(a) == ParamNames(p) by {
      TwoParamNames(a);
      TwoParamNames(p);
    }
    TwoParameterReverse(c, p);
    assert a.args[0].name == "B" && a.args[1].name == "A" && c.args == [Int32, String];
    assert map["B" := [Int32], "A" := [String]] == map["A" := [String], "B" := [Int32]];
  }

  /** A class implementing `IEnumerable<int>` and then
      `IEnumerable<List<string>>`. */
  const TwoSequences: Type := Named("TwoSequences", [], Some(Object), [IEnumerableOf(Int32), IEnumerableOf(ListOf(String))])

  /** The ancestor search does not stop at the first instantiation of the
      pattern's definition: against `IEnumerable<List<T>>`, the first
      `IEnumerable<int>` fails on its argument, and the later
      `IEnumerable<List<string>>` decides the match. */
  lemma LaterInstanceDecides()
    ensures FindInstance(TwoSequences, "IEnumerable`1") == Some(IEnumerableOf(Int32))
    ensures MatchType(TwoSequences, IEnumerableOf(ListOf(T)), map[], true) == (true, map["T" := [String]])
  {
    var c := TwoSequences;
    var p := IEnumerableOf(ListOf(T));
    var none: Bindings := map[];
    assert IsOpen(p) by { assert IsOpen(T); assert IsOpen(ListOf(T)); }
    assert FindInstance(IEnumerableOf(Int32), "IEnumerable`1") == Some(IEnumerableOf(Int32));
    assert IsOpen(ListOf(T)) by { assert IsOpen(T); }
    assert !InstanceOf(Int32, "List`1");
    assert MatchOpen(Int32, ListOf(T), none, false) == (false, none);
    assert MatchType(Int32, ListOf(T), none, false) == (false, none);
    assert MatchArguments(IEnumerableOf(Int32), p, 0, none) == (false, none);
    var bound := Bind(none, "T", String);
    assert bound.Keys == {"T"} && bound["T"] == [String];
    assert MatchType(String, T, none, false) == (true, bound);
    assert MatchArguments(ListOf(String), ListOf(T), 1, bound) == (true, bound);
    assert MatchArguments(ListOf(String), ListOf(T), 0, none) == (true, bound);
    assert MatchType(ListOf(String), ListOf(T), none, false) == (true, bound);
    assert MatchArguments(IEnumerableOf(ListOf(String)), p, 1, bound) == (true, bound);
    assert MatchOpen(IEnumerableOf(ListOf(String)), p, none, true) == (true, bound);
    assert MatchAncestors(c, p, 1, none) == (true, bound);
    assert MatchAncestors(c, p, 0, none) == (true, bound);
  }

  /** A closed argument position must be matched exactly: against
      `IDictionary<TKey, string>`, `IDictionary<int, string>` matches and
      `IDictionary<int, int>` does not. */
  lemma ClosedArgumentMustAgree()
    ensures MatchType(IDictionaryOf(Int32, String), IDictionaryOf(Param("TKey"), String), map[], true).0
    ensures !MatchType(IDictionaryOf(Int32, Int32), IDictionaryOf(Param("TKey"), String), map[], true).0
  {
    var p := IDictionaryOf(Param("TKey"), String);
    assert IsOpen(p) by { assert IsOpen(Param("TKey")); }
    assert !IsOpen(String);
    MatchInstanceIffFits(IDictionaryOf(Int32, String), p, map[]);
    MatchInstanceIffFits(IDictionaryOf(Int32, Int32), p, map[]);
    assert !Fits(Int32, String);
  }

  /** `IDictionary<int, string>` against its own definition binds both
      parameters by position. */
  lemma MatchDictionaryInterface()
    ensures MatchType(IDictionaryOf(Int32, String), IDictionaryDefinition, map[], true)
            == (true, map["TKey" := [Int32], "TValue" := [String]])
  {
    var p := IDictionaryDefinition;
    var c := IDictionaryOf(Int32, String);
    MatchInstanceOfDefinition(c, p, map[], true);
    TwoBindingsOf(MatchType(c, p, map[], true), map[], p, c);
  }
}

=== FILE: type_helper_tests.dfy ===
/** The assertions of the type-helper test fixture, one lemma per test,
    with the helper lemmas their proofs share. */
module TypeHelperTests {
  import opened Types
  import opened Fixtures
  import opened Assignability
  import opened LowestBase
  import opened Matching

  lemma IsGenericAssignable()
    ensures IsTypeAssignableFrom(IEnumerableOf(IPublishedContent), DynamicPublishedContentList)
    ensures !IsTypeAssignableFrom(IQueryableOf(IPublishedContent), DynamicPublishedContentList)
    ensures IsTypeAssignableFrom(IEnumerableOf(IPublishedContent), ListOf(IPublishedContent))
    ensures !IsTypeAssignableFrom(IEnumerableDefinition, IEnumerableOf(IPublishedContent))
    ensures IsAssignableFromGeneric(IEnumerableDefinition, IEnumerableOf(IPublishedContent))
  {
    assert ClosedThroughout(IEnumerableOf(IPublishedContent)) by {
      assert ClosedThroughout(IEnumerable);
      assert ClosedThroughout(IPublishedContent);
    }
    assert IsOpen(IEnumerableDefinition) by { assert IsOpen(T); }
    ClosedNotAssignableToOpen(IEnumerableDefinition, IEnumerableOf(IPublishedContent));
  }

  /** The generic definitions and the `Count` parameter type are open. */
  lemma OpenContracts()
    ensures IsOpen(Base(T)) && IsOpen(Derived(T)) && IsOpen(IBase(T))
    ensures IsOpen(IEnumerableDefinition) && IsOpen(NullableDefinition) && IsOpen(CountParameter)
  {
    assert IsOpen(T) && IsOpen(Param("TSource"));
    assert IEnumerableDefinition == IEnumerableOf(T) && NullableDefinition == Nullable(T);
  }

  /** The positive assertions of the generic-assignability test. */
  lemma IsAssignableToGenericType()
    ensures IsAssignableFromGeneric(Base(T), Derived(Int32))
    ensures IsAssignableFromGeneric(IEnumerableDefinition, ListOf(Int32))
    ensures IsAssignableFromGeneric(Derived(T), Derived(Int32))
    ensures IsAssignableFromGeneric(Base(T), Derived2(Int32))
    ensures IsAssignableFromGeneric(IBase(T), DerivedI(Int32))
    ensures IsAssignableFromGeneric(IBase(T), Derived2(Int32))
    ensures IsAssignableFromGeneric(NullableDefinition, Nullable(Int32))
    ensures IsAssignableFromGeneric(CountParameter, ListOf(Int32))
  {
    OpenContracts();
    assert ReachesDefinition(ICollectionOf(Int32), "IEnumerable`1") by {
      assert ReachesDefinition(IEnumerableOf(Int32), "IEnumerable`1");
    }
    assert ReachesDefinition(ListOf(Int32), "IEnumerable`1") by {
      assert ReachesDefinition(IListOf(Int32), "IEnumerable`1");
    }
    assert ReachesDefinition(DerivedI(Int32), "IBase`1") by {
      assert ReachesDefinition(IDerived(Int32), "IBase`1");
    }
    assert ReachesDefinition(Derived2(Int32), "IBase`1") by {
      assert ReachesDefinition(Derived(Int32), "IBase`1");
    }
  }

  /** The negative assertions of the generic-assignability test. */
  lemma IsNotAssignableToGenericType()
    ensures !IsAssignableFromGeneric(Object, Derived(Int32))
    ensures !IsAssignableFromGeneric(ListDefinition, Derived(Int32))
    ensures !IsAssignableFromGeneric(IEnumerableDefinition, Derived(Int32))
    ensures !IsAssignableFromGeneric(Base(Int32), Derived(Int32))
    ensures !IsAssignableFromGeneric(IEnumerableOf(Int32), ListOf(Int32))
    ensures !IsAssignableFromGeneric(NullableDefinition, Int32)
  {
    assert !ReachesDefinition(Derived(Int32), "List`1") by {
      assert !ReachesDefinition(Base(Int32), "List`1") by {
        assert !ReachesDefinition(Object, "List`1");
      }
      assert !ReachesDefinition(IBase(Int32), "List`1");
      assert !InterfaceReachesDefinition(Derived(Int32), "List`1", 1);
    }
    assert !ReachesDefinition(Derived(Int32), "IEnumerable`1") by {
      assert !ReachesDefinition(Base(Int32), "IEnumerable`1") by {
        assert !ReachesDefinition(Object, "IEnumerable`1");
      }
      assert !ReachesDefinition(IBase(Int32), "IEnumerable`1");
      assert !InterfaceReachesDefinition(Derived(Int32), "IEnumerable`1", 1);
    }
    assert !IsOpen(Base(Int32)) && !IsOpen(IEnumerableOf(Int32)) by {
      assert !IsOpen(Int32);
      assert !SomeArgumentOpen(Base(Int32), 1);
      assert !SomeArgumentOpen(IEnumerableOf(Int32), 1);
    }
    assert !ReachesDefinition(Int32, "Nullable`1") by {
      assert !ReachesDefinition(ValueType, "Nullable`1") by {
        assert !ReachesDefinition(Object, "Nullable`1");
      }
      assert !ReachesDefinition(IComparable, "Nullable`1");
      assert !InterfaceReachesDefinition(Int32, "Nullable`1", 1);
    }
  }

  /** Heights of the data-access types, level by level. */
  lemma CommandHeights()
    ensures Height(Component) == 3 && Height(Int32) == 3
    ensures Height(OleDbCommand) == 5 && Height(OdbcCommand) == 5 && Height(SqlCommand) == 5
  {
    assert Height(Object) == 1 && Height(IDisposable) == 1 && Height(ICloneable) == 1 && Height(IComparable) == 1;
    assert MaxHeight(MarshalByRefObject, 0) == 0;
    assert MaxHeight(ValueType, 0) == 0;
    assert MaxHeight(IComponent, 1) == 0;
    assert MaxHeight(IDbCommand, 1) == 0;
    assert Height(IComponent) == 2 && Height(IDbCommand) == 2;
    assert MaxHeight(Component, 1) == 0;
    assert MaxHeight(Int32, 1) == 0;
    assert MaxHeight(DbCommand, 1) == 0;
    assert Height(DbCommand) == 4;
    assert MaxHeight(OleDbCommand, 1) == 0;
    assert MaxHeight(OdbcCommand, 1) == 0;
    assert MaxHeight(SqlCommand, 1) == 0;
  }

  /** Three sibling commands: none is a base of another. */
  lemma SiblingCommandsUnrelated()
    ensures !IsTypeAssignableFrom(OleDbCommand, OdbcCommand)
    ensures !IsTypeAssignableFrom(OdbcCommand, OleDbCommand)
    ensures !IsTypeAssignableFrom(SqlCommand, OleDbCommand)
  {
    CommandHeights();
    NotAssignableUpward(OleDbCommand, OdbcCommand);
    NotAssignableUpward(OdbcCommand, OleDbCommand);
    NotAssignableUpward(SqlCommand, OleDbCommand);
  }

  lemma CommandsAssignableToComponent()
    ensures IsTypeAssignableFrom(Component, OleDbCommand)
    ensures IsTypeAssignableFrom(Component, OdbcCommand)
    ensures IsTypeAssignableFrom(Component, SqlCommand)
    ensures IsTypeAssignableFrom(MarshalByRefObject, Component)
  {
    assert IsTypeAssignableFrom(Component, DbCommand);
  }

  lemma FindCommonBaseClassOfCommands()
    ensures GetLowestBaseType([OleDbCommand, OdbcCommand, SqlCommand]) == Fail
  {
    var ts := [OleDbCommand, OdbcCommand, SqlCommand];
    SiblingCommandsUnrelated();
    assert !IsBaseOfAll(ts[0], ts) by { assert ts[1] == OdbcCommand; }
    assert !IsBaseOfAll(ts[1], ts) by { assert ts[0] == OleDbCommand; }
    assert !IsBaseOfAll(ts[2], ts) by { assert ts[0] == OleDbCommand; }
    NoBaseOfAllFails(ts);
  }

  lemma FindCommonBaseClassWithComponent()
    ensures GetLowestBaseType([OleDbCommand, OdbcCommand, SqlCommand, Component]) == Succeed(Component)
  {
    var ts := [OleDbCommand, OdbcCommand, SqlCommand];
    assert IsBaseOfAll(Component, ts) by {
      CommandsAssignableToComponent();
    }
    FindCommonBaseClassOfCommands();
    AddInputAfterFailure(ts, Component);
    assert ts + [Component] == [OleDbCommand, OdbcCommand, SqlCommand, Component];
  }

  lemma FindCommonBaseClassWithComponentBase()
    ensures GetLowestBaseType([OleDbCommand, OdbcCommand, SqlCommand, Component, MarshalByRefObject])
            == Succeed(MarshalByRefObject)
  {
    var ts := [OleDbCommand, OdbcCommand, SqlCommand, Component];
    FindCommonBaseClassWithComponent();
    CommandsAssignableToComponent();
    AddWiderInput(ts, Component, MarshalByRefObject);
    assert ts + [MarshalByRefObject] == [OleDbCommand, OdbcCommand, SqlCommand, Component, MarshalByRefObject];
  }

  /** `Int32` is unrelated to `Component` and to its base `MarshalByRefObject`. */
  lemma IntUnrelatedToComponents()
    ensures !IsTypeAssignableFrom(Component, Int32) && !IsTypeAssignableFrom(Int32, Component)
    ensures !IsTypeAssignableFrom(MarshalByRefObject, Int32)
  {
    CommandHeights();
    NotAssignableUpward(Component, Int32);
    NotAssignableUpward(Int32, Component);
    assert !IsTypeAssignableFrom(MarshalByRefObject, ValueType);
    assert !IsTypeAssignableFrom(MarshalByRefObject, IComparable);
    assert !AssignableThroughInterface(MarshalByRefObject, Int32, 1);
  }

  lemma FindCommonBaseClassWithInt()
    ensures GetLowestBaseType([OleDbCommand, OdbcCommand, SqlCommand, Component, MarshalByRefObject, Int32])
            == Fail
  {
    var ts := [OleDbCommand, OdbcCommand, SqlCommand, Component, MarshalByRefObject];
    FindCommonBaseClassWithComponentBase();
    IntUnrelatedToComponents();
    assert !IsTypeAssignableFrom(Int32, MarshalByRefObject) by {
      CommandHeights();
      AssignableRaisesHeight(MarshalByRefObject, Component);
      NotAssignableUpward(Int32, MarshalByRefObject);
    }
    AddUnrelatedInput(ts, MarshalByRefObject, Int32);
    assert ts + [Int32] == [OleDbCommand, OdbcCommand, SqlCommand, Component, MarshalByRefObject, Int32];
  }

  lemma FindCommonBaseClassOfOne()
    ensures GetLowestBaseType([PropertyAliasDto]) == Succeed(PropertyAliasDto)
  {
  }

  lemma FindCommonBaseInterface()
    ensures GetLowestBaseType([IApplicationEventHandler, Scheduler, CacheRefresherEventHandler])
            == Succeed(IApplicationEventHandler)
  {
    var ts := [IApplicationEventHandler, Scheduler, CacheRefresherEventHandler];
    assert IsTypeAssignableFrom(IApplicationEventHandler, ApplicationEventHandler);
    assert IsBaseOfAll(IApplicationEventHandler, ts);
    LowestBaseIsBaseOfAll(ts, IApplicationEventHandler);
  }

  lemma MatchSameType()
    ensures MatchType(Int32, Int32, map[], true) == (true, map[])
  {
  }

  lemma MatchUnrelatedType()
    ensures MatchType(Int32, String, map[], true) == (false, map[])
  {
    assert !IsTypeAssignableFrom(String, Int32) by {
      assert !IsTypeAssignableFrom(String, Object);
      assert !IsTypeAssignableFrom(String, ValueType);
      assert !IsTypeAssignableFrom(String, IComparable);
      assert !AssignableThroughInterface(String, Int32, 1);
    }
  }

  lemma MatchNonGenericInterface()
    ensures MatchType(ListOf(Int32), IEnumerable, map[], true) == (true, map[])
  {
    assert !IsOpen(IEnumerable);
    assert IsTypeAssignableFrom(IEnumerable, IEnumerableOf(Int32));
    assert IsTypeAssignableFrom(IEnumerable, ICollectionOf(Int32));
    assert IsTypeAssignableFrom(IEnumerable, IListOf(Int32));
    assert IsTypeAssignableFrom(IEnumerable, ListOf(Int32));
  }

  /** A free parameter binds whatever it is matched against. */
  lemma BindT()
    ensures MatchType(Int32, T, map[], false) == (true, map["T" := [Int32]])
    ensures MatchType(Int32, T, map[], true) == (true, map["T" := [Int32]])
  {
    assert IsOpen(Param("T"));
    var b := Bind(map[], "T", Int32);
    assert b.Keys == {"T"} && b["T"] == [Int32];
  }

  lemma MatchFreeParameter()
    ensures MatchType(Int32, TestMethod7Argument, map[], true) == (true, map["T" := [Int32]])
  {
    BindT();
  }

  /** `IList<int>` reaches no `List<>`, so it matches `List<T>` only the
      other way round, through `List<T>`'s interface `IList<T>`. */
  lemma MatchInterfaceAgainstClassPattern()
    ensures MatchType(IListOf(Int32), TestMethod7Parameter, map[], true) == (true, map["T" := [Int32]])
  {
    var p := TestMethod7Parameter;
    var c := IListOf(Int32);
    assert IsOpen(p) by { assert IsOpen(T); }
    assert !ReachesDefinition(c, "List`1") by {
      assert !ReachesDefinition(IEnumerable, "List`1");
      assert !InterfaceReachesDefinition(IEnumerableOf(Int32), "List`1", 1);
      assert !ReachesDefinition(IEnumerableOf(Int32), "List`1");
      assert !InterfaceReachesDefinition(ICollectionOf(Int32), "List`1", 1);
      assert !ReachesDefinition(ICollectionOf(Int32), "List`1");
      assert !InterfaceReachesDefinition(c, "List`1", 1);
    }
    assert FindInstance(p, "IList`1") == Some(IListOf(T)) by {
      assert FindInstance(IListOf(T), "IList`1") == Some(IListOf(T));
      assert FindInstanceAbove(p, "IList`1", 0) == Some(IListOf(T));
    }
    assert ParamNames(IListOf(T)) == {"T"} == ParamNames(p) by {
      assert ParamNames(T) == {"T"};
    }
    MatchReverseBinds(c, p, map[]);
    OneBindingOf(MatchType(c, p, map[], true), map[], IListOf(T), c);
  }

  lemma MatchClosedInterface()
    ensures MatchType(ListOf(Int32), IListOf(Int32), map[], true) == (true, map[])
  {
    assert !IsOpen(IListOf(Int32)) by {
      assert !IsOpen(Int32);
      assert !SomeArgumentOpen(IListOf(Int32), 1);
    }
    assert IsTypeAssignableFrom(IListOf(Int32), ListOf(Int32));
  }

  lemma MatchSameDefinition()
    ensures MatchType(ListOf(Int32), TestMethod7Parameter, map[], true) == (true, map["T" := [Int32]])
  {
    assert IsOpen(TestMethod7Parameter) by { assert IsOpen(T); }
    BindT();
    var b := map["T" := [Int32]];
    assert MatchArguments(ListOf(Int32), TestMethod7Parameter, 1, b) == (true, b);
    assert MatchArguments(ListOf(Int32), TestMethod7Parameter, 0, map[]) == (true, b);
  }

  /** `Dictionary<int, string>` matches `IDictionary<,>` through the
      interface `IDictionary<int, string>` it implements. */
  lemma MatchThroughInterface()
    ensures MatchType(DictionaryOf(Int32, String), IDictionaryDefinition, map[], true)
            == (true, map["TKey" := [Int32], "TValue" := [String]])
  {
    var p := IDictionaryDefinition;
    var c := DictionaryOf(Int32, String);
    assert IsOpen(p) by { assert IsOpen(Param("TKey")); }
    assert FindInstance(c, "IDictionary`2") == Some(IDictionaryOf(Int32, String)) by {
      assert FindInstanceAbove(c, "IDictionary`2", 0) == Some(IDictionaryOf(Int32, String));
    }
    var a := FindInstance(c, p.name).value;
    assert a == IDictionaryOf(Int32, String);
    TwoParameterMatchThroughAncestry(c, p);
  }
}

=== FILE: types.dfy ===
/** Type descriptors: the data the type helper walks.

A type is either a free generic parameter (`T`, `TKey`, ...) or a named type
applied to its generic arguments, carrying its base class (absent for
`Object`, for interfaces and for free parameters) and the interfaces it
declares. Each declared interface carries its own interfaces, so the
transitive interface set is reached by walking the value.

A generic type definition such as `IEnumerable<>` is represented the way
reflection reports it: the definition applied to its own parameters
(`IEnumerable<T>`). Names carry the arity suffix reflection uses
(`IEnumerable` and "IEnumerable`1" are different definitions).
*/
module Types {

  datatype Option<+T> = None | Some(value: T)

  datatype Type =
    | Param(name: string)
    | Named(name: string, args: seq<Type>, base: Option<Type>, interfaces: seq<Type>)
  {
    /** True for an instantiation of a generic definition (open or closed). */
    predicate IsGeneric() {
      Named? && |args| > 0
    }
  }

  /** True when a free generic parameter occurs among the generic arguments,
      at any depth: reflection's `ContainsGenericParameters`. */
  predicate IsOpen(t: Type)
    decreases t, 1
  {
    match t
    case Param(_) => true
    case Named(_, _, _, _) => SomeArgumentOpen(t, 0)
  }

  /** `t` is closed and so is its whole ancestry: its base type and every
      interface, recursively. Every type .NET can declare with closed
      arguments is like this, since a closed type's base and interfaces
      are instantiated from its own (closed) arguments. */
  predicate ClosedThroughout(t: Type)
    decreases t, 1
  {
    && !IsOpen(t)
    && (t.Named? ==> (t.base.Some? ==> ClosedThroughout(t.base.value)) && InterfacesClosed(t, 0))
  }

  /** Every one of `t.interfaces[i..]` is closed throughout. */
  predicate InterfacesClosed(t: Type, i: nat)
    requires t.Named?
    decreases t, 0, |t.interfaces| - i
  {
    i >= |t.interfaces| || (ClosedThroughout(t.interfaces[i]) && InterfacesClosed(t, i + 1))
  }

  /** Some argument among `t.args[i..]` is open. */
  predicate SomeArgumentOpen(t: Type, i: nat)
    requires t.Named?
    decreases t, 0, |t.args| - i
  {
    i < |t.args| && (IsOpen(t.args[i]) || SomeArgumentOpen(t, i + 1))
  }

  lemma {:induction false} SomeArgumentOpenIff(t: Type, i: nat)
    requires t.Named?
    ensures SomeArgumentOpen(t, i) <==> exists j :: i <= j < |t.args| && IsOpen(t.args[j])
    decreases |t.args| - i
  {
    if i < |t.args| {
      SomeArgumentOpenIff(t, i + 1);
    }
  }

  /** The names of the free parameters occurring in a type's generic arguments. */
  function ParamNames(t: Type): (ns: set<string>)
    ensures ns == {} <==> !IsOpen(t)
    decreases t, 1
  {
    match t
    case Param(n) => {n}
    case Named(_, _, _, _) => ArgumentParamNames(t, 0)
  }

  /** The names of the free parameters occurring in `t.args[i..]`. */
  function ArgumentParamNames(t: Type, i: nat): (ns: set<string>)
    requires t.Named?
    ensures ns == {} <==> !SomeArgumentOpen(t, i)
    decreases t, 0, |t.args| - i
  {
    if i < |t.args| then ParamNames(t.args[i]) + ArgumentParamNames(t, i + 1) else {}
  }

  /** Every type reachable from `t` through base classes and declared
      interfaces, `t` included: the reference notion of "supertype". */
  function Ancestors(t: Type): (s: set<Type>)
    ensures t in s
    decreases t
  {
    match t
    case Param(_) => {t}
    case Named(_, _, base, interfaces) =>
      {t}
      + (if base.Some? then Ancestors(base.value) else {})
      + (set i, a | 0 <= i < |interfaces| && a in Ancestors(interfaces[i]) :: a)
  }

  /** Length of the longest base/interface path from `t` up to a root. Every
      direct ancestor of `t` sits strictly lower. */
  function Height(t: Type): (h: nat)
    ensures t.Named? && t.base.Some? ==> Height(t.base.value) < h
    ensures t.Named? ==> forall i :: 0 <= i < |t.interfaces| ==> Height(t.interfaces[i]) < h
    decreases t, 1
  {
    match t
    case Param(_) => 0
    case Named(_, _, base, interfaces) =>
      var b := if base.Some? then Height(base.value) else 0;
      var m := MaxHeight(t, 0);
      1 + (if b < m then m else b)
  }

  /** The greatest height among `t.interfaces[i..]` (0 when there are none). */
  function MaxHeight(t: Type, i: nat): (m: nat)
    requires t.Named? && i <= |t.interfaces|
    ensures forall j :: i <= j < |t.interfaces| ==> Height(t.interfaces[j]) <= m
    decreases t, 0, |t.interfaces| - i
  {
    if i == |t.interfaces| then 0
    else
      var h := Height(t.interfaces[i]);
      var rest := MaxHeight(t, i + 1);
      if h < rest then rest else h
  }

  /** The number of nodes in a type's term: the type itself, its generic
      arguments, its base type and its interfaces, each counted in full. */
  function Size(t: Type): (s: nat)
    ensures t.Named? ==> forall i :: 0 <= i < |t.args| ==> Size(t.args[i]) < s
    ensures t.Named? && t.base.Some? ==> Size(t.base.value) < s
    ensures t.Named? ==> forall i :: 0 <= i < |t.interfaces| ==> Size(t.interfaces[i]) < s
    decreases t, 1
  {
    match t
    case Param(_) => 1
    case Named(_, _, base, _) =>
      1 + ArgsSize(t, 0) + (if base.Some? then Size(base.value) else 0) + InterfacesSize(t, 0)
  }

  /** The total size of `t.args[i..]`. */
  function ArgsSize(t: Type, i: nat): (s: nat)
    requires t.Named? && i <= |t.args|
    ensures forall j :: i <= j < |t.args| ==> Size(t.args[j]) <= s
    decreases t, 0, |t.args| - i
  {
    if i == |t.args| then 0 else Size(t.args[i]) + ArgsSize(t, i + 1)
  }

  /** The total size of `t.interfaces[i..]`. */
  function InterfacesSize(t: Type, i: nat): (s: nat)
    requires t.Named? && i <= |t.interfaces|
    ensures forall j :: i <= j < |t.interfaces| ==> Size(t.interfaces[j]) <= s
    decreases t, 0, |t.interfaces| - i
  {
    if i == |t.interfaces| then 0 else Size(t.interfaces[i]) + InterfacesSize(t, i + 1)
  }
}
